=== FILE: README.md ===
# learn-doctest FileProcessor, MathUtils, UserService and Calculator, modelled in Dafny

This project models the four product components of learn-doctest, a small C++ code base:

- **FileProcessor** is an ingest orchestrator over abstract file-system, network and logger interfaces.
  - `processFile`, `downloadAndProcess`, `backupFile` and `processMultipleFiles` run their guards and then make at most one write.
  - The counter `totalProcessedSize` grows only after a successful write, by the size of the source content.
- **MathUtils** holds the integer helpers: `factorial`, `isPrime`, `power`, `findMax` and `numberToWords`. It also has the guards of `divide` and `average`.
- **UserService** is create/read/update/delete over an abstract key-value database. It includes the `id|name|email` serialiser and the `getline`-based parser.
- **Calculator** keeps a bounded history (at most 100 results, oldest evicted first), a memory cell and a degrees flag. It also has the guards of `divide`, `power` and `sqrt` and the fixed dispatch of `evaluateExpression`.

How the model is built:

- **Code that changes state becomes a class.** The classes are `FileProcessing.FileProcessor`, `Users.UserService`, `Users.LineStream` and `Calculators.Calculator`. Their methods make the collaborator calls one at a time, as the source does.
- **Each FileProcessor and UserService method is proved equal to a pure step function** on a state value (`Env`, `Db`). The state value holds the stored contents and a trace of every collaborator call, log levels included. The step functions' contracts give the outcome and the new state: what is written and how the counter moves. The `*Calls` lemmas state which calls each guard path makes.
- **Outcomes the code cannot see are parameters:** whether `writeFile`, `save` or `remove` reports success, and the network's status code and body.
- **The loops of `factorial`, `power`, `isPrime` and `getline`, and the batch loop, are `while` loops.** Each is proved against a reference definition: recursive for `factorial`, `power`, `getline` and the batch loop, and the definition of a prime for `isPrime`.

Files:
- `wrappers.dfy`: `Option`, `Result` and the two exception kinds (`invalid_argument`, `runtime_error`).
- `interfaces.dfy`: log levels and the network reply (src/interfaces.hpp).
- `file_processor.dfy`, `math_utils.dfy`, `user_service.dfy`, `calculator.dfy`: one module per component.

## Model

| member | source | states |
|---|---|---|
| FileProcessing.UpperChar | src/file_processor.cpp:134 | (no contract) ASCII `toupper` of one character: a lower-case letter moves down by 32, anything else is kept |
| FileProcessing.ToUpper | src/file_processor.cpp:132-135 | same length; each character mapped by ASCII `toupper` |
| FileProcessing.Transform | src/file_processor.cpp:132-136 | length is the content length plus 11; starts with "PROCESSED: "; position 11+i is `toupper` of content[i]; no lower-case letter after the tag |
| FileProcessing.ToUpperIdempotent | src/file_processor.cpp:132-136 | upper-casing twice equals upper-casing once |
| FileProcessing.TransformHello | src/file_processor.cpp:132-136 | "hello" becomes "PROCESSED: HELLO" |
| FileProcessing.IsValidContent | src/file_processor.cpp:138-140 | (no contract) `validateContent`: the content is non-empty and at most 1,000,000 characters |
| FileProcessing.Commit | src/file_processor.cpp:34-44 | (no contract) the write tail shared by processFile and downloadAndProcess (also :73-83): write the transformed content; on success store it, add the source size to the total and log info; otherwise log an error and keep files and total |
| FileProcessing.ProcessStep | src/file_processor.cpp:10-45 | success iff both names are non-empty, the input exists, its content is non-empty and at most 1,000,000 characters, and the write reports success; on success the output holds the transformed content and the total grows by the source size; on failure files and total are unchanged |
| FileProcessing.ProcessCalls | src/file_processor.cpp:10-45 | empty names: only log calls; missing input: nothing read or written; invalid content: nothing written; empty content ends with a warning |
| FileProcessing.DownloadStep | src/file_processor.cpp:47-84 | success iff url and output are non-empty, status is 200, the body is valid, and the write succeeds; on failure files and total are unchanged |
| FileProcessing.DownloadCalls | src/file_processor.cpp:47-84 | the first call is an info log, followed by setTimeout(30), get(url) and getResponseCode; a non-200 status writes nothing and ends with an error log even when the body is non-empty; an empty body under 200 ends with a warning |
| FileProcessing.BackupStep | src/file_processor.cpp:86-109 | the total never changes; success iff the name is non-empty, exists, and the write succeeds; then `name.backup` holds the original content verbatim |
| FileProcessing.BackupCalls | src/file_processor.cpp:86-109 | an empty name makes only log calls; a missing name causes no read or write; an existing name causes exactly exists, read, write(backup, content), log |
| FileProcessing.BatchLoop | src/file_processor.cpp:116-121 | the outputs are a subsequence, in input order, of the `f.processed` names; trace and total only grow |
| FileProcessing.Batch | src/file_processor.cpp:111-126 | no more outputs than inputs; outputs a subsequence of `f.processed` in order; an info log before and after the loop |
| FileProcessing.BatchLoopAppend | src/file_processor.cpp:116-121 | processing `a + b` is processing `a`, then `b` from the state `a` left; the outputs concatenate, so a failure never stops later items |
| FileProcessing.BatchLoopSingle | src/file_processor.cpp:117-120 | one item is one `processFile(f, f.processed)` call; its output name is kept iff that call succeeded |
| FileProcessing.BatchSkipsMissing | src/file_processor.cpp:116-121 | a missing item followed by a valid one yields exactly the valid one's output |
| FileProcessing.BatchSkipsFailedItem | src/file_processor.cpp:111-126 | in [a, b, c] with b missing, the result is exactly [a.processed, c.processed] |
| FileProcessing.BatchSkipsInvalid | src/file_processor.cpp:116-121 | an item whose content fails validation, followed by a valid one, yields only the valid one's output |
| FileProcessing.BatchSkipsInvalidItem | src/file_processor.cpp:111-126 | in [a, b, c] with b failing validation, the result is exactly [a.processed, c.processed] (b and c must not be a.processed) |
| FileProcessing.SubsequenceLength | src/file_processor.cpp:111-126 | a subsequence is never longer than what it is drawn from |
| FileProcessing.ProcessTwice | src/file_processor.cpp:10-45 | processing the same valid input twice writes the same output and counts the source size twice, when the input and output names differ |
| FileProcessing.TotalNeverDecreases | src/file_processor.cpp:8-130 | over any sequence of operations and collaborator outcomes, the total never decreases and the trace only grows |
| FileProcessing.FileProcessor.constructor | src/file_processor.cpp:5-8 | starts with the given files, total 0, empty trace |
| FileProcessing.FileProcessor.ProcessFile | src/file_processor.cpp:10-45 | new state and result are exactly ProcessStep's |
| FileProcessing.FileProcessor.DownloadAndProcess | src/file_processor.cpp:47-84 | new state and result are exactly DownloadStep's |
| FileProcessing.FileProcessor.BackupFile | src/file_processor.cpp:86-109 | new state and result are exactly BackupStep's |
| FileProcessing.FileProcessor.ProcessMultipleFiles | src/file_processor.cpp:111-126 | the loop's new state and result are exactly Batch's |
| FileProcessing.FileProcessor.GetTotalProcessedSize | src/file_processor.cpp:128-130 | returns the counter |
| MathUtils.Divide | src/math_utils.cpp:16-21 | fails with "Division by zero" iff b is 0; otherwise quotient times b is a |
| MathUtils.Average | src/math_utils.cpp:55-61 | fails iff the vector is empty, with the source's message; otherwise mean times count is the sum |
| MathUtils.Factorial | src/math_utils.cpp:23-35 | fails iff n < 0, with the source's message; otherwise returns n!, the recursive definition (0! = 1! = 1) |
| MathUtils.FactMonotone | src/math_utils.cpp:23-35 | n! is monotone in n |
| MathUtils.FactorialFitsInInt | src/math_utils.cpp:23-35 | n! fits a 32-bit int for n <= 12 and does not for n >= 13 |
| MathUtils.IsPrime | src/math_utils.cpp:37-46 | the trial-division loop returns true iff n >= 2 and no d with 2 <= d < n divides n |
| MathUtils.NoDivisorAbove | src/math_utils.cpp:42-45 | no divisor below i with i*i > n means n is prime (why stopping at the square root is enough) |
| MathUtils.SmallCofactor | src/math_utils.cpp:42-45 | a divisor at or above i, with i*i > n, has a cofactor below i that also divides n |
| MathUtils.EvenDivisorMakesEven | src/math_utils.cpp:40-42 | an odd n has no even divisor, so stepping i by 2 skips nothing |
| MathUtils.Power | src/math_utils.cpp:63-76 | fails iff the exponent is negative, with the source's message; otherwise base multiplied by itself exponent times, 1 for exponent 0 whatever the base |
| MathUtils.PowAdd | src/math_utils.cpp:63-76 | b^(m+n) = b^m * b^n |
| MathUtils.PowExamples | src/math_utils.cpp:63-76 | 2^3 = 8, 10^0 = 1, 0^0 = 1 |
| MathUtils.MaxOf | src/math_utils.cpp:52 | an element of the vector that is at least every element |
| MathUtils.FindMax | src/math_utils.cpp:48-53 | fails iff the vector is empty, with the source's message; otherwise an element that is at least every element |
| MathUtils.Spell | src/math_utils.cpp:96-106 | (no contract) the table lookups: ones[n] below 10, teens[n-10] below 20, else tens[n/10], followed by " " and ones[n%10] when n%10 is not 0 |
| MathUtils.NumberToWords | src/math_utils.cpp:78-81 | fails iff n is outside 0..99, with the source's message |
| MathUtils.NumberTablesWellFormed | src/math_utils.cpp:83-94 | the ones, teens and tens tables have no repeats, no spaces and no shared words; tens[0] and tens[1] are empty |
| MathUtils.SpellRoundTrip | src/math_utils.cpp:96-106 | over well-formed tables, reading back the spelled words of any n in 0..99 gives n |
| MathUtils.WordsRoundTrip | src/math_utils.cpp:78-106 | WordsToNumber inverts numberToWords on 0..99 (WordsToNumber, ReadWords and the table search Find are the model's own inverse; the source has no such reader) |
| MathUtils.NumberToWordsInjective | src/math_utils.cpp:78-106 | distinct numbers get distinct words |
| MathUtils.NumberToWordsExamples | src/math_utils.cpp:96-106 | 0 is "zero", 15 "fifteen", 50 "fifty", 21 "twenty one" |
| Users.UserToString | src/user_service.cpp:108-110 | (no contract) id, "\|", name, "\|", email; its properties are RoundTripIff |
| Users.ParseUser | src/user_service.cpp:112-123 | (no contract) the reference for stringToUser: three getline steps (delimiters '\|', '\|', '\n'); any failed step gives invalid_argument("Invalid user data format"); its properties are ParseUserError, ParseUserSuccessIff and RoundTripIff |
| Users.FieldOf | src/user_service.cpp:116-118 | (no contract) the reference for what one getline call stores: the characters of the rest up to, not including, the first delimiter, or all of the rest when there is none |
| Users.FieldOfSpec | src/user_service.cpp:116-118 | what getline stores is a prefix of the rest with no delimiter, followed by the delimiter unless it reached the end |
| Users.NextField | src/user_service.cpp:116-118 | a getline call fails iff eof is set or the stream is at its end; otherwise it returns the characters up to the delimiter, then either consumes the delimiter or sets eof |
| Users.ParseUserError | src/user_service.cpp:116-120 | every failure is invalid_argument("Invalid user data format") |
| Users.ParseUserSuccessIff | src/user_service.cpp:112-123 | stringToUser succeeds iff the text has two '\|' with at least one character after the second |
| Users.RoundTripIff | src/user_service.cpp:108-123 | stringToUser(userToString(u)) == u iff id and name have no '\|', email is non-empty, and email has no newline |
| Users.FieldOfPrefix | src/user_service.cpp:116-117 | getline on `x + delim + y` with no delimiter in x stores x |
| Users.ScanField | src/user_service.cpp:116-118 | the character loop collects exactly the characters up to the delimiter |
| Users.LineStream.GetLine | src/user_service.cpp:116-118 | result, field and new stream state are exactly NextField's |
| Users.UserService.StringToUser | src/user_service.cpp:112-123 | the three getline calls on a fresh stream give exactly ParseUser |
| Users.Store | src/user_service.cpp:19-28 | (no contract) the save tail shared by createUser and updateUser (also :69-78): save userToString(u) under u.id; on success store it and log info; otherwise log an error and keep the records |
| Users.CreateStep | src/user_service.cpp:8-29 | success iff all three fields are non-empty, the id is new, and save succeeds; then the id maps to userToString(u); on failure records are unchanged |
| Users.CreateCalls | src/user_service.cpp:8-29 | an empty field makes only log calls; an existing id saves nothing; every save is of userToString(u) under u.id; once the guards pass, the calls are exactly exists(u.id), save(u.id, userToString(u)) and a log call, whatever save reports |
| Users.GetStep | src/user_service.cpp:31-56 | a user is returned iff the id is non-empty and known and its record is non-empty and parses, and it is the parsed record; records are unchanged |
| Users.GetCalls | src/user_service.cpp:31-56 | an empty id makes only log calls; load only for existing ids; nothing is saved or removed |
| Users.UpdateStep | src/user_service.cpp:58-79 | success iff the id is non-empty and exists and save succeeds (name and email are not checked); then the id maps to userToString(u); otherwise unchanged |
| Users.UpdateCalls | src/user_service.cpp:58-79 | an empty id makes only log calls; a missing id saves nothing; every save is of userToString(u) under u.id; once the guards pass, the calls are exactly exists(u.id), save(u.id, userToString(u)) and a log call, whatever save reports |
| Users.DeleteStep | src/user_service.cpp:81-101 | success iff the id is non-empty and exists and remove succeeds; then the id is gone; otherwise unchanged |
| Users.DeleteCalls | src/user_service.cpp:81-101 | an empty id makes only log calls; a missing id removes nothing |
| Users.CreateThenGet | src/user_service.cpp:8-56 | a user created with serialisable fields is read back unchanged |
| Users.UpdateThenGet | src/user_service.cpp:31-79 | a successful update with serialisable fields is what a later read returns, including an empty name |
| Users.CreateExistingFails | src/user_service.cpp:14-17 | creating an existing id fails and changes nothing even when save would succeed |
| Users.DeleteThenGet | src/user_service.cpp:31-101 | after a successful delete the user can no longer be read |
| Users.UserService.constructor | src/user_service.cpp:5-6 | starts with the given records and an empty trace |
| Users.UserService.CreateUser | src/user_service.cpp:8-29 | new state and result are exactly CreateStep's |
| Users.UserService.GetUser | src/user_service.cpp:31-56 | new state and result are exactly GetStep's |
| Users.UserService.UpdateUser | src/user_service.cpp:58-79 | new state and result are exactly UpdateStep's |
| Users.UserService.DeleteUser | src/user_service.cpp:81-101 | new state and result are exactly DeleteStep's |
| Calculators.Recent | src/calculator.cpp:89-94 | never more than 100 entries |
| Calculators.Push | src/calculator.cpp:89-94 | stays within 100 entries; the new value is last; below 100 it is a plain append |
| Calculators.PushRecent | src/calculator.cpp:89-94 | pushing onto the last 100 results gives the last 100 of the results extended, so the history is the most recent results in order |
| Calculators.RecentLast | src/calculator.cpp:89-109 | the newest history entry is the newest result, however many were evicted |
| Calculators.PushFull | src/calculator.cpp:89-94 | a full history drops exactly its oldest entry |
| Calculators.Apply | src/calculator.cpp:10-35 | (no contract) the arithmetic of add, subtract, multiply and divide (divisor non-zero) that evaluateExpression dispatches to |
| Calculators.Dispatch | src/calculator.cpp:111-122 | succeeds iff the expression is one of "2+3", "10-4", "6*7", "15/3"; "" fails with "Empty expression" and anything else with "Unsupported expression format"; the division it picks has a non-zero divisor |
| Calculators.DispatchValues | src/calculator.cpp:116-119 | the four expressions evaluate to 5, 6, 42 and 5 |
| Calculators.Calculator.constructor | src/calculator.cpp:6-8 | empty history, memory 0, degrees mode on |
| Calculators.Calculator.AddToHistory | src/calculator.cpp:89-94 | the history becomes Push of the old one and keeps the history-is-recent-results invariant; memory and mode unchanged |
| Calculators.Calculator.Add | src/calculator.cpp:10-14 | returns a + b and records exactly that one value |
| Calculators.Calculator.Subtract | src/calculator.cpp:16-20 | returns a - b and records exactly that one value |
| Calculators.Calculator.Multiply | src/calculator.cpp:22-26 | returns a * b and records exactly that one value |
| Calculators.Calculator.Divide | src/calculator.cpp:28-35 | fails iff b is 0, with "Division by zero" and the history untouched; otherwise the quotient, recorded once |
| Calculators.Calculator.Power | src/calculator.cpp:37-44 | fails iff base is 0 and exponent negative, with the history untouched; otherwise records and returns the library's value |
| Calculators.Calculator.Sqrt | src/calculator.cpp:46-53 | fails iff the operand is negative, with the history untouched; otherwise records and returns the library's value |
| Calculators.Calculator.Trig | src/calculator.cpp:55-67 | sin and cos record and return the library's value once |
| Calculators.Calculator.SetMemory | src/calculator.cpp:69-71 | memory becomes v; history and mode untouched |
| Calculators.Calculator.GetMemory | src/calculator.cpp:73-75 | returns the memory |
| Calculators.Calculator.ClearMemory | src/calculator.cpp:77-79 | memory becomes 0; history and mode untouched |
| Calculators.Calculator.SetDegreesMode | src/calculator.cpp:81-83 | sets the mode; history and memory untouched |
| Calculators.Calculator.IsDegreesMode | src/calculator.cpp:85-87 | returns the mode |
| Calculators.Calculator.GetHistory | src/calculator.cpp:96-98 | returns the history: at most 100 entries, the most recent results in order |
| Calculators.Calculator.ClearHistory | src/calculator.cpp:100-102 | empties only the history |
| Calculators.Calculator.GetLastResult | src/calculator.cpp:104-109 | fails with runtime_error "No calculations performed yet" iff nothing was recorded since the last clear; otherwise the last history entry, which is the newest result |
| Calculators.Calculator.EvaluateExpression | src/calculator.cpp:111-122 | fails iff the expression is not one of the four, with the history untouched; otherwise the exact value of the chosen operation, recorded once |
| Calculators.Calculator.Reset | src/calculator.cpp:124-128 | memory 0, degrees mode on, empty history |

## Left out

- Floating point: doubles are reals, so rounding, infinities and NaN are not modelled. Division and the mean are exact.
- The values of `std::pow`, `std::sqrt`, `std::sin` and `std::cos` come from the C library. They are parameters of Calculator.Power, Calculator.Sqrt and Calculator.Trig.
- Calculator.Trig: the degrees-to-radians conversion with M_PI is not modelled, because the library value is a parameter. `sin` and `cos` share this one method.
- 32-bit `int` is modelled by unbounded integers, because signed overflow is undefined behaviour in C++. This affects `factorial`, `power`, the `int` sum that `average` takes with `std::accumulate`, and `add`/`multiply`; FactorialFitsInInt says where `factorial` stays within `int`.
- MathUtils.IsPrime: for primes from 46339² = 2147302921 up to 2³¹−1, the source's `i * i` overflows `int` before the loop ends. The model's unbounded product does not show this.
- `size_t` for `totalProcessedSize` is a `nat`, so its wrap-around is not modelled.
- `::toupper` is the ASCII "C" locale mapping only.
- One Dafny `char` stands for one byte of `std::string`. So `content.size()`, the 1,000,000 bound and `totalProcessedSize` count bytes.
- The collaborators have no implementation in the code base, only interfaces. A file system is a map and a database is a map. A failed `writeFile`, `save` or `remove` is assumed to leave the stored contents unchanged.
- Exceptions thrown by the collaborators themselves are not modelled. The code lets them propagate.
- Log messages are recorded only by their level. The message text is left out.
- The network timeout is passed on to the client and recorded, but never enforced.
- `getAllUserIds` and `getAllKeys` only forward a key listing. They are not modelled.
- `MathUtils::add` and `MathUtils::multiply` are single expressions with nothing to guard, so they are not modelled.
- `getUser`'s `new User` is an `Option<User>`, so ownership of the raw pointer is not modelled.
- `history.reserve(100)` affects performance only, so it is not modelled.
- A `getline` call made after a failed one is never modelled, because `stringToUser` stops at the first failure.

=== FILE: calculator.dfy ===
/**
 * The Calculator (src/calculator.cpp): arithmetic that records every result
 * in a bounded history, a memory cell and a degrees/radians flag.
 *
 * Doubles are modelled as reals. The values of `pow`, `sqrt`, `sin` and
 * `cos` come from the C library and are parameters here; what is modelled is
 * the guards in front of them and the history every result goes into.
 */
module Calculators {
  import opened Wrappers

  /** The most results the history keeps. */
  const HistoryLimit := 100

  // ---------------------------------------------------------------------
  // The history as a value
  // ---------------------------------------------------------------------

  /** The last HistoryLimit values of `values`, or all of them if there are
      fewer: what the history should hold after those results. */
  function Recent(values: seq<real>): (r: seq<real>)
    ensures |r| <= HistoryLimit
  {
    if |values| <= HistoryLimit then values else values[|values| - HistoryLimit..]
  }

  /** `addToHistory` on the vector: append, then drop the oldest entry if
      there are now more than HistoryLimit. */
  function Push(history: seq<real>, value: real): (r: seq<real>)
    ensures |history| <= HistoryLimit ==> |r| <= HistoryLimit
    ensures r != [] && r[|r| - 1] == value
    ensures |history| < HistoryLimit ==> r == history + [value]
  {
    var appended := history + [value];
    if |appended| > HistoryLimit then appended[1..] else appended
  }

  /** Pushing onto the recent values of a sequence of results gives the
      recent values of the sequence extended by the new result: the history
      holds the most recent results in the order they were computed. */
  lemma PushRecent(values: seq<real>, value: real)
    ensures Push(Recent(values), value) == Recent(values + [value])
  {
    var all := values + [value];
    if |values| > HistoryLimit {
      var r := Recent(values);
      assert r + [value] == all[|all| - HistoryLimit - 1..];
      assert (r + [value])[1..] == all[|all| - HistoryLimit..];
    } else if |values| == HistoryLimit {
      assert (values + [value])[1..] == all[|all| - HistoryLimit..];
    }
  }

  /** The last entry of the history is the last result, however many older
      ones were dropped. */
  lemma RecentLast(values: seq<real>)
    requires values != []
    ensures Recent(values) != [] && Recent(values)[|Recent(values)| - 1] == values[|values| - 1]
  {
  }

  /** Once HistoryLimit results have been recorded the history stays full:
      every new result evicts exactly one entry. */
  lemma PushFull(history: seq<real>, value: real)
    requires |history| == HistoryLimit
    ensures |Push(history, value)| == HistoryLimit
    ensures Push(history, value) == history[1..] + [value]
  {
    assert (history + [value])[1..] == history[1..] + [value];
  }

  // ---------------------------------------------------------------------
  // evaluateExpression's dispatch
  // ---------------------------------------------------------------------

  datatype Op = Plus | Minus | Times | Over

  const EmptyExpression := "Empty expression"
  const UnsupportedExpression := "Unsupported expression format"

  /** The four expressions `evaluateExpression` understands. */
  predicate IsSupported(expression: string)
  {
    expression == "2+3" || expression == "10-4" || expression == "6*7" || expression == "15/3"
  }

  /** Which operation, on which operands, an expression stands for. */
  function Dispatch(expression: string): (r: Result<(Op, real, real)>)
    ensures r.Success? <==> IsSupported(expression)
    ensures expression == [] ==> r == Failure(InvalidArgument(EmptyExpression))
    ensures expression != [] && !IsSupported(expression) ==>
              r == Failure(InvalidArgument(UnsupportedExpression))
    ensures r.Success? && r.value.0 == Over ==> r.value.2 != 0.0
  {
    if expression == [] then Failure(InvalidArgument(EmptyExpression))
    else if expression == "2+3" then Success((Plus, 2.0, 3.0))
    else if expression == "10-4" then Success((Minus, 10.0, 4.0))
    else if expression == "6*7" then Success((Times, 6.0, 7.0))
    else if expression == "15/3" then Success((Over, 15.0, 3.0))
    else Failure(InvalidArgument(UnsupportedExpression))
  }

  /** The exact value of an operation on reals. */
  function Apply(op: Op, a: real, b: real): real
    requires op == Over ==> b != 0.0
  {
    match op
    case Plus => a + b
    case Minus => a - b
    case Times => a * b
    case Over => a / b
  }

  /** The values the supported expressions evaluate to. */
  lemma DispatchValues()
    ensures var r := Dispatch("2+3"); r.Success? && Apply(r.value.0, r.value.1, r.value.2) == 5.0
    ensures var r := Dispatch("10-4"); r.Success? && Apply(r.value.0, r.value.1, r.value.2) == 6.0
    ensures var r := Dispatch("6*7"); r.Success? && Apply(r.value.0, r.value.1, r.value.2) == 42.0
    ensures var r := Dispatch("15/3"); r.Success? && Apply(r.value.0, r.value.1, r.value.2) == 5.0
  {
  }

  // ---------------------------------------------------------------------
  // The calculator
  // ---------------------------------------------------------------------

  class Calculator {
    var history: seq<real>
    var memory: real
    var degreesMode: bool
    /** Every result recorded since the history was last cleared. */
    ghost var results: seq<real>

    /** The history is the most recent HistoryLimit results, in order. */
    ghost predicate Valid()
      reads this
    {
      history == Recent(results)
    }

    constructor ()
      ensures Valid()
      ensures history == [] && memory == 0.0 && degreesMode
    {
      history := [];
      memory := 0.0;
      degreesMode := true;
      results := [];
    }

    method AddToHistory(value: real)
      requires Valid()
      modifies this
      ensures Valid() && results == old(results) + [value]
      ensures history == Push(old(history), value)
      ensures memory == old(memory) && degreesMode == old(degreesMode)
    {
      PushRecent(results, value);
      history := history + [value];
      if |history| > HistoryLimit {
        history := history[1..];
      }
      results := results + [value];
    }

    method Add(a: real, b: real) returns (result: real)
      requires Valid()
      modifies this
      ensures result == a + b
      ensures Valid() && results == old(results) + [result]
      ensures history == Push(old(history), result)
      ensures memory == old(memory) && degreesMode == old(degreesMode)
    {
      result := a + b;
      AddToHistory(result);
    }

    method Subtract(a: real, b: real) returns (result: real)
      requires Valid()
      modifies this
      ensures result == a - b
      ensures Valid() && results == old(results) + [result]
      ensures history == Push(old(history), result)
      ensures memory == old(memory) && degreesMode == old(degreesMode)
    {
      result := a - b;
      AddToHistory(result);
    }

    method Multiply(a: real, b: real) returns (result: real)
      requires Valid()
      modifies this
      ensures result == a * b
      ensures Valid() && results == old(results) + [result]
      ensures history == Push(old(history), result)
      ensures memory == old(memory) && degreesMode == old(degreesMode)
    {
      result := a * b;
      AddToHistory(result);
    }

    /** `divide`: a zero divisor throws before the history is touched. */
    method Divide(a: real, b: real) returns (r: Result<real>)
      requires Valid()
      modifies this
      ensures r.Failure? <==> b == 0.0
      ensures r.Failure? ==> r.error == InvalidArgument("Division by zero")
                             && history == old(history) && results == old(results)
      ensures r.Success? ==> r.value * b == a && results == old(results) + [r.value]
                             && history == Push(old(history), r.value)
      ensures Valid() && memory == old(memory) && degreesMode == old(degreesMode)
    {
      if b == 0.0 {
        return Failure(InvalidArgument("Division by zero"));
      }
      var result := a / b;
      AddToHistory(result);
      r := Success(result);
    }

    /** `power`; `pow` is what the C library returns for (base, exponent).
        Zero to a negative power throws before the history is touched. */
    method Power(base: real, exponent: real, pow: real) returns (r: Result<real>)
      requires Valid()
      modifies this
      ensures r.Failure? <==> base == 0.0 && exponent < 0.0
      ensures r.Failure? ==> r.error == InvalidArgument("Cannot raise zero to negative power")
                             && history == old(history) && results == old(results)
      ensures r.Success? ==> r.value == pow && results == old(results) + [pow]
                             && history == Push(old(history), pow)
      ensures Valid() && memory == old(memory) && degreesMode == old(degreesMode)
    {
      if base == 0.0 && exponent < 0.0 {
        return Failure(InvalidArgument("Cannot raise zero to negative power"));
      }
      AddToHistory(pow);
      r := Success(pow);
    }

    /** `sqrt`; `root` is what the C library returns. A negative operand
        throws before the history is touched. */
    method Sqrt(value: real, root: real) returns (r: Result<real>)
      requires Valid()
      modifies this
      ensures r.Failure? <==> value < 0.0
      ensures r.Failure? ==> r.error == InvalidArgument("Cannot take square root of negative number")
                             && history == old(history) && results == old(results)
      ensures r.Success? ==> r.value == root && results == old(results) + [root]
                             && history == Push(old(history), root)
      ensures Valid() && memory == old(memory) && degreesMode == old(degreesMode)
    {
      if value < 0.0 {
        return Failure(InvalidArgument("Cannot take square root of negative number"));
      }
      AddToHistory(root);
      r := Success(root);
    }

    /** `sin` and `cos`: the C library's value (after the degree conversion
        when degrees mode is on) is the parameter `value`; it is recorded
        and returned. */
    method Trig(value: real) returns (result: real)
      requires Valid()
      modifies this
      ensures result == value
      ensures Valid() && results == old(results) + [value]
      ensures history == Push(old(history), value)
      ensures memory == old(memory) && degreesMode == old(degreesMode)
    {
      AddToHistory(value);
      result := value;
    }

    method SetMemory(value: real)
      modifies this
      ensures memory == value
      ensures history == old(history) && results == old(results) && degreesMode == old(degreesMode)
    {
      memory := value;
    }

    method GetMemory() returns (value: real)
      ensures value == memory
    {
      value := memory;
    }

    method ClearMemory()
      modifies this
      ensures memory == 0.0
      ensures history == old(history) && results == old(results) && degreesMode == old(degreesMode)
    {
      memory := 0.0;
    }

    method SetDegreesMode(degrees: bool)
      modifies this
      ensures degreesMode == degrees
      ensures history == old(history) && results == old(results) && memory == old(memory)
    {
      degreesMode := degrees;
    }

    method IsDegreesMode() returns (degrees: bool)
      ensures degrees == degreesMode
    {
      degrees := degreesMode;
    }

    /** `getHistory`: a copy, oldest first. Under Valid() it holds the most
        recent results, at most HistoryLimit of them. */
    method GetHistory() returns (h: seq<real>)
      requires Valid()
      ensures h == history
      ensures |h| <= HistoryLimit && h == Recent(results)
    {
      h := history;
    }

    method ClearHistory()
      modifies this
      ensures Valid() && history == [] && results == []
      ensures memory == old(memory) && degreesMode == old(degreesMode)
    {
      history := [];
      results := [];
    }

    /** `getLastResult`: the newest entry; an empty history is an error. */
    method GetLastResult() returns (r: Result<real>)
      requires Valid()
      ensures r.Failure? <==> results == []
      ensures r.Failure? ==> r.error == RuntimeError("No calculations performed yet")
      ensures r.Success? ==> r.value == history[|history| - 1] && r.value == results[|results| - 1]
    {
      if history == [] {
        return Failure(RuntimeError("No calculations performed yet"));
      }
      RecentLast(results);
      r := Success(history[|history| - 1]);
    }

    /** `evaluateExpression`: one of four fixed expressions, evaluated with
        the matching operation (so recorded in the history); anything else
        throws and leaves the history alone. */
    method EvaluateExpression(expression: string) returns (r: Result<real>)
      requires Valid()
      modifies this
      ensures r.Failure? <==> !IsSupported(expression)
      ensures r.Failure? ==> r.error == Dispatch(expression).error && history == old(history) && results == old(results)
      ensures r.Success? ==> var d := Dispatch(expression).value;
                             r.value == Apply(d.0, d.1, d.2)
                             && results == old(results) + [r.value]
                             && history == Push(old(history), r.value)
      ensures Valid() && memory == old(memory) && degreesMode == old(degreesMode)
    {
      if expression == [] {
        return Failure(InvalidArgument(EmptyExpression));
      }
      var value;
      if expression == "2+3" {
        value := Add(2.0, 3.0);
      } else if expression == "10-4" {
        value := Subtract(10.0, 4.0);
      } else if expression == "6*7" {
        value := Multiply(6.0, 7.0);
      } else if expression == "15/3" {
        var q := Divide(15.0, 3.0);
        value := q.value;
      } else {
        return Failure(InvalidArgument(UnsupportedExpression));
      }
      r := Success(value);
    }

    /** `reset`: memory 0, degrees mode on, empty history. */
    method Reset()
      modifies this
      ensures Valid() && history == [] && results == [] && memory == 0.0 && degreesMode
    {
      memory := 0.0;
      degreesMode := true;
      history := [];
      results := [];
    }
  }
}

=== FILE: file_processor.dfy ===
/**
 * The FileProcessor ingest orchestrator (src/file_processor.cpp).
 *
 * Each operation runs an ordered list of guards and then makes at most one
 * write through the file system. The model has two layers. The first is a
 * set of pure step functions on an `Env` value: the file-system contents,
 * `totalProcessedSize`, and the trace of collaborator calls made so far.
 * The contracts of these functions give the outcome and the new state; the
 * `*Calls` lemmas state which calls each guard path makes. The second is the
 * class `FileProcessor`, whose methods make the calls one by one, as the
 * source does, and are proved to agree with the step functions.
 *
 * The outcomes FileProcessor cannot see are parameters. These are whether a
 * write succeeds and what the network answers.
 */
module FileProcessing {
  import opened Interfaces

  /** The tag `transformContent` puts in front of the upper-cased content. */
  const Tag := "PROCESSED: "
  /** The largest content, in characters, that `validateContent` accepts. */
  const MaxContentSize := 1000000
  /** The timeout `downloadAndProcess` hands to the network client. */
  const DownloadTimeout := 30
  /** The output name `processMultipleFiles` derives from each input name. */
  const ProcessedSuffix := ".processed"
  /** The name `backupFile` copies a file to. */
  const BackupSuffix := ".backup"

  /** One call into a collaborator (file system, network client or logger). */
  datatype Event =
    | FileExists(name: string)
    | ReadFile(name: string)
    | WriteFile(name: string, content: string)
    | SetTimeout(seconds: int)
    | Get(url: string)
    | GetResponseCode
    | Log(level: Level)

  /** What an operation can change or observe. `files` holds the file-system
      contents, `total` is `totalProcessedSize`, and `trace` lists every
      collaborator call made so far, oldest first. */
  datatype Env = Env(files: map<string, string>, total: nat, trace: seq<Event>)

  // ---------------------------------------------------------------------
  // Transformation and validation policies
  // ---------------------------------------------------------------------

  predicate IsLower(c: char) { 'a' <= c <= 'z' }

  /** `::toupper` in the "C" locale: maps ASCII a-z to A-Z and leaves every
      other character alone. */
  function UpperChar(c: char): char
  {
    if IsLower(c) then (c as int - 32) as char else c
  }

  /** Upper-cases a string character by character (the std::transform). */
  function ToUpper(s: string): (r: string)
    ensures |r| == |s|
    ensures forall i :: 0 <= i < |s| ==> r[i] == UpperChar(s[i])
    ensures forall i :: 0 <= i < |r| ==> !IsLower(r[i])
  {
    if s == [] then [] else [UpperChar(s[0])] + ToUpper(s[1..])
  }

  /** `transformContent`: the tag, then the content upper-cased. */
  function Transform(content: string): (r: string)
    ensures |r| == |content| + |Tag|
    ensures r[..|Tag|] == Tag
    ensures forall i :: 0 <= i < |content| ==> r[|Tag| + i] == UpperChar(content[i])
    ensures forall i :: |Tag| <= i < |r| ==> !IsLower(r[i])
  {
    var upper := ToUpper(content);
    assert forall i :: |Tag| <= i < |Tag| + |upper| ==> (Tag + upper)[i] == upper[i - |Tag|];
    Tag + upper
  }

  /** `validateContent`: non-empty and at most MaxContentSize characters. */
  predicate IsValidContent(content: string)
  {
    content != [] && |content| <= MaxContentSize
  }

  /** Upper-casing twice is the same as upper-casing once. */
  lemma {:induction false} ToUpperIdempotent(s: string)
    ensures ToUpper(ToUpper(s)) == ToUpper(s)
  {
    if s != [] {
      ToUpperIdempotent(s[1..]);
      assert ToUpper(s)[1..] == ToUpper(s[1..]);
    }
  }

  /** Example: "hello" becomes "PROCESSED: HELLO". */
  lemma TransformHello()
    ensures Transform("hello") == "PROCESSED: HELLO"
  {
  }

  // ---------------------------------------------------------------------
  // Facts about the calls an operation made
  // ---------------------------------------------------------------------

  /** Every call recorded from position `from` on is a log call. No file
      system or network call was made. */
  ghost predicate OnlyLogsAfter(trace: seq<Event>, from: nat)
  {
    forall i :: from <= i < |trace| ==> trace[i].Log?
  }

  /** Nothing was read or written from position `from` on. */
  ghost predicate NoReadOrWriteAfter(trace: seq<Event>, from: nat)
  {
    forall i :: from <= i < |trace| ==> !trace[i].ReadFile? && !trace[i].WriteFile?
  }

  /** Nothing was written from position `from` on. */
  ghost predicate NoWriteAfter(trace: seq<Event>, from: nat)
  {
    forall i :: from <= i < |trace| ==> !trace[i].WriteFile?
  }

  // ---------------------------------------------------------------------
  // The operations, as functions of the state before them
  // ---------------------------------------------------------------------

  /** The tail shared by both ingest operations. It writes the transformed
      content. Only if the write reports success does it add the size of the
      SOURCE content to the total. */
  function Commit(s: Env, trace: seq<Event>, content: string, output: string, writeOk: bool): (Env, bool)
  {
    var written := trace + [WriteFile(output, Transform(content))];
    if writeOk then
      (Env(s.files[output := Transform(content)], s.total + |content|, written + [Log(Info)]), true)
    else
      (Env(s.files, s.total, written + [Log(Error)]), false)
  }

  /** `processFile(input, output)` when `writeFile` would return `writeOk`. */
  function ProcessStep(s: Env, input: string, output: string, writeOk: bool): (r: (Env, bool))
    ensures s.trace < r.0.trace && s.total <= r.0.total
    ensures r.1 <==> input != [] && output != [] && input in s.files
                     && IsValidContent(s.files[input]) && writeOk
    ensures r.1 ==> r.0.files == s.files[output := Transform(s.files[input])]
                    && r.0.total == s.total + |s.files[input]|
    ensures !r.1 ==> r.0.files == s.files && r.0.total == s.total
  {
    if input == [] || output == [] then
      (s.(trace := s.trace + [Log(Error)]), false)
    else if input !in s.files then
      (s.(trace := s.trace + [FileExists(input)] + [Log(Error)]), false)
    else
      var content := s.files[input];
      var read := s.trace + [FileExists(input)] + [Log(Info)] + [ReadFile(input)];
      if content == [] then
        (s.(trace := read + [Log(Warning)]), false)
      else if !IsValidContent(content) then
        (s.(trace := read + [Log(Error)]), false)
      else
        Commit(s, read, content, output, writeOk)
  }

  /** `downloadAndProcess(url, output)` when the network answers `reply` and
      `writeFile` would return `writeOk`. */
  function DownloadStep(s: Env, url: string, output: string, reply: Response, writeOk: bool): (r: (Env, bool))
    ensures s.trace < r.0.trace && s.total <= r.0.total
    ensures r.1 <==> url != [] && output != [] && reply.status == HttpOk
                     && IsValidContent(reply.body) && writeOk
    ensures r.1 ==> r.0.files == s.files[output := Transform(reply.body)]
                    && r.0.total == s.total + |reply.body|
    ensures !r.1 ==> r.0.files == s.files && r.0.total == s.total
  {
    if url == [] || output == [] then
      (s.(trace := s.trace + [Log(Error)]), false)
    else
      var fetched := s.trace + [Log(Info)] + [SetTimeout(DownloadTimeout)] + [Get(url)] + [GetResponseCode];
      if reply.status != HttpOk then
        (s.(trace := fetched + [Log(Error)]), false)
      else if reply.body == [] then
        (s.(trace := fetched + [Log(Warning)]), false)
      else if !IsValidContent(reply.body) then
        (s.(trace := fetched + [Log(Error)]), false)
      else
        Commit(s, fetched, reply.body, output, writeOk)
  }

  /** `backupFile(name)` when `writeFile` would return `writeOk`. */
  function BackupStep(s: Env, name: string, writeOk: bool): (r: (Env, bool))
    ensures s.trace < r.0.trace && r.0.total == s.total
    ensures r.1 <==> name != [] && name in s.files && writeOk
    ensures r.1 ==> r.0.files == s.files[name + BackupSuffix := s.files[name]]
    ensures !r.1 ==> r.0.files == s.files
  {
    if name == [] then
      (s.(trace := s.trace + [Log(Error)]), false)
    else if name !in s.files then
      (s.(trace := s.trace + [FileExists(name)] + [Log(Error)]), false)
    else
      var backupName := name + BackupSuffix;
      var content := s.files[name];
      var written := s.trace + [FileExists(name)] + [ReadFile(name)] + [WriteFile(backupName, content)];
      if writeOk then
        (Env(s.files[backupName := content], s.total, written + [Log(Info)]), true)
      else
        (s.(trace := written + [Log(Error)]), false)
  }

  /** The calls processFile makes on each guard path: none but a log call
      for an empty name; no read or write for a missing input; no write for
      invalid content; an empty input ends with a warning. */
  lemma ProcessCalls(s: Env, input: string, output: string, writeOk: bool)
    ensures var t := ProcessStep(s, input, output, writeOk).0.trace;
            (input == [] || output == [] ==> OnlyLogsAfter(t, |s.trace|))
            && (input !in s.files ==> NoReadOrWriteAfter(t, |s.trace|))
            && (input in s.files && !IsValidContent(s.files[input]) ==> NoWriteAfter(t, |s.trace|))
            && (input != [] && output != [] && input in s.files && s.files[input] == []
                ==> t[|t| - 1] == Log(Warning))
  {
  }

  /** The calls downloadAndProcess makes: setTimeout(30), then get, then
      getResponseCode, right after the first log call. A status other than
      200 ends with an error and no write, even with a non-empty body; an
      empty body under status 200 ends with a warning. */
  lemma DownloadCalls(s: Env, url: string, output: string, reply: Response, writeOk: bool)
    ensures var t := DownloadStep(s, url, output, reply, writeOk).0.trace;
            (url == [] || output == [] ==> OnlyLogsAfter(t, |s.trace|))
            && (url != [] && output != [] ==>
                  |t| > |s.trace| + 4
                  && t[|s.trace|] == Log(Info)
                  && t[|s.trace| + 1] == SetTimeout(DownloadTimeout)
                  && t[|s.trace| + 2] == Get(url)
                  && t[|s.trace| + 3] == GetResponseCode)
            && (url != [] && output != [] && reply.status != HttpOk ==>
                  NoWriteAfter(t, |s.trace|) && t[|t| - 1] == Log(Error))
            && (url != [] && output != [] && reply.status == HttpOk && reply.body == [] ==>
                  t[|t| - 1] == Log(Warning))
  {
  }

  /** The calls backupFile makes: none but a log call for an empty name;
      no read or write for a missing file; for an existing file exactly
      exists, read, the write of the verbatim content to the backup name,
      and a log call. */
  lemma BackupCalls(s: Env, name: string, writeOk: bool)
    ensures var t := BackupStep(s, name, writeOk).0.trace;
            (name == [] ==> OnlyLogsAfter(t, |s.trace|))
            && (name != [] && name !in s.files ==> NoReadOrWriteAfter(t, |s.trace|))
            && (name != [] && name in s.files ==>
                  |t| == |s.trace| + 4
                  && t[|s.trace|] == FileExists(name)
                  && t[|s.trace| + 1] == ReadFile(name)
                  && t[|s.trace| + 2] == WriteFile(name + BackupSuffix, s.files[name])
                  && t[|s.trace| + 3].Log?)
  {
  }

  /** The output name of every input, in order. */
  function Outputs(names: seq<string>): seq<string>
  {
    seq(|names|, i requires 0 <= i < |names| => names[i] + ProcessedSuffix)
  }

  /** `xs` is `ys` with some elements left out and the rest kept in order. */
  ghost predicate IsSubsequence<T>(xs: seq<T>, ys: seq<T>)
    decreases |ys|
  {
    if ys == [] then xs == []
    else (xs != [] && xs[0] == ys[0] && IsSubsequence(xs[1..], ys[1..]))
         || IsSubsequence(xs, ys[1..])
  }

  lemma {:induction false} SubsequenceLength<T>(xs: seq<T>, ys: seq<T>)
    requires IsSubsequence(xs, ys)
    ensures |xs| <= |ys|
    decreases |ys|
  {
    if ys != [] {
      if xs != [] && xs[0] == ys[0] && IsSubsequence(xs[1..], ys[1..]) {
        SubsequenceLength(xs[1..], ys[1..]);
      } else {
        SubsequenceLength(xs, ys[1..]);
      }
    }
  }

  /** The loop of `processMultipleFiles`. Item i is processed into
      `names[i] + ".processed"` with write outcome `oks[i]`. Its output name
      is kept only if that call succeeded. */
  function BatchLoop(s: Env, names: seq<string>, oks: seq<bool>): (r: (Env, seq<string>))
    requires |oks| == |names|
    ensures s.trace <= r.0.trace && s.total <= r.0.total
    ensures IsSubsequence(r.1, Outputs(names))
    decreases |names|
  {
    if names == [] then (s, [])
    else
      var first := ProcessStep(s, names[0], names[0] + ProcessedSuffix, oks[0]);
      var rest := BatchLoop(first.0, names[1..], oks[1..]);
      assert Outputs(names)[0] == names[0] + ProcessedSuffix;
      assert Outputs(names)[1..] == Outputs(names[1..]);
      (rest.0, if first.1 then [names[0] + ProcessedSuffix] + rest.1 else rest.1)
  }

  /** `processMultipleFiles(names)`: a log call, the loop, a summary log call. */
  function Batch(s: Env, names: seq<string>, oks: seq<bool>): (r: (Env, seq<string>))
    requires |oks| == |names|
    ensures s.trace < r.0.trace && s.total <= r.0.total
    ensures |r.1| <= |names|
    ensures IsSubsequence(r.1, Outputs(names))
    ensures r.0.trace[|s.trace|] == Log(Info) && r.0.trace[|r.0.trace| - 1] == Log(Info)
  {
    var (s1, results) := BatchLoop(s.(trace := s.trace + [Log(Info)]), names, oks);
    SubsequenceLength(results, Outputs(names));
    (s1.(trace := s1.trace + [Log(Info)]), results)
  }

  lemma ConcatAssoc<T>(x: seq<T>, y: seq<T>, z: seq<T>)
    ensures x + (y + z) == (x + y) + z
  {
  }

  lemma ConcatEmpty<T>(x: seq<T>)
    ensures x + [] == x && [] + x == x
  {
  }

  lemma PrefixSnoc<T>(x: seq<T>, i: nat)
    requires i < |x|
    ensures x[..i + 1] == x[..i] + [x[i]]
  {
  }

  lemma PrefixAll<T>(x: seq<T>)
    ensures x[..|x|] == x
  {
  }

  /** Processing `a + b` is processing `a` and then `b` from where `a` left
      off. So a failing item never stops the items after it. */
  lemma {:induction false} BatchLoopAppend(s: Env, a: seq<string>, oa: seq<bool>, b: seq<string>, ob: seq<bool>)
    requires |oa| == |a| && |ob| == |b|
    ensures var left := BatchLoop(s, a, oa);
            var right := BatchLoop(left.0, b, ob);
            BatchLoop(s, a + b, oa + ob) == (right.0, left.1 + right.1)
    decreases |a|
  {
    if a == [] {
      assert a + b == b && oa + ob == ob;
      assert BatchLoop(s, a, oa) == (s, []);
      assert [] + BatchLoop(s, b, ob).1 == BatchLoop(s, b, ob).1;
    } else {
      var first := ProcessStep(s, a[0], a[0] + ProcessedSuffix, oa[0]);
      assert (a + b)[0] == a[0] && (oa + ob)[0] == oa[0];
      assert (a + b)[1..] == a[1..] + b && (oa + ob)[1..] == oa[1..] + ob;
      BatchLoopAppend(first.0, a[1..], oa[1..], b, ob);
      var left := BatchLoop(first.0, a[1..], oa[1..]);
      var right := BatchLoop(left.0, b, ob);
      if first.1 {
        var head := [a[0] + ProcessedSuffix];
        assert BatchLoop(s, a, oa) == (left.0, head + left.1);
        assert BatchLoop(s, a + b, oa + ob) == (right.0, head + (left.1 + right.1));
        ConcatAssoc(head, left.1, right.1);
      } else {
        assert BatchLoop(s, a, oa) == left;
      }
    }
  }

  /** Processing a single item is one call of processFile. */
  lemma BatchLoopSingle(s: Env, name: string, ok: bool)
    ensures var step := ProcessStep(s, name, name + ProcessedSuffix, ok);
            BatchLoop(s, [name], [ok]) == (step.0, if step.1 then [name + ProcessedSuffix] else [])
  {
    var step := ProcessStep(s, name, name + ProcessedSuffix, ok);
    assert [name][0] == name && [ok][0] == ok;
    assert [name][1..] == [] && [ok][1..] == [];
    assert BatchLoop(step.0, [], []) == (step.0, []);
    assert [name + ProcessedSuffix] + [] == [name + ProcessedSuffix];
  }

  /** A missing item followed by a valid one yields the valid one only. */
  lemma BatchSkipsMissing(s: Env, b: string, c: string)
    requires b !in s.files && c != [] && c in s.files && IsValidContent(s.files[c])
    ensures BatchLoop(s, [b, c], [true, true]).1 == [c + ProcessedSuffix]
  {
    var p := ProcessStep(s, b, b + ProcessedSuffix, true);
    assert !p.1;
    BatchLoopSingle(p.0, c, true);
    BatchLoopSingle(s, b, true);
    BatchLoopAppend(s, [b], [true], [c], [true]);
    assert [b] + [c] == [b, c] && [true] + [true] == [true, true];
  }

  /** An item with invalid content followed by a valid one yields the valid
      one only. */
  lemma BatchSkipsInvalid(s: Env, b: string, c: string)
    requires b != [] && b in s.files && !IsValidContent(s.files[b])
    requires c != [] && c in s.files && IsValidContent(s.files[c])
    ensures BatchLoop(s, [b, c], [true, true]).1 == [c + ProcessedSuffix]
  {
    var p := ProcessStep(s, b, b + ProcessedSuffix, true);
    assert !p.1;
    BatchLoopSingle(p.0, c, true);
    BatchLoopSingle(s, b, true);
    BatchLoopAppend(s, [b], [true], [c], [true]);
    assert [b] + [c] == [b, c] && [true] + [true] == [true, true];
  }

  /** As BatchSkipsFailedItem, but b exists and fails validation. */
  lemma BatchSkipsInvalidItem(s: Env, a: string, b: string, c: string)
    requires a != [] && c != []
    requires a in s.files && IsValidContent(s.files[a])
    requires c in s.files && IsValidContent(s.files[c])
    requires b != [] && b in s.files && !IsValidContent(s.files[b])
    requires b != a + ProcessedSuffix && c != a + ProcessedSuffix
    ensures Batch(s, [a, b, c], [true, true, true]).1 == [a + ProcessedSuffix, c + ProcessedSuffix]
  {
    var s0 := s.(trace := s.trace + [Log(Info)]);
    var p1 := ProcessStep(s0, a, a + ProcessedSuffix, true);
    assert p1.1;
    BatchSkipsInvalid(p1.0, b, c);
    BatchLoopSingle(s0, a, true);
    BatchLoopAppend(s0, [a], [true], [b, c], [true, true]);
    assert [a] + [b, c] == [a, b, c] && [true] + [true, true] == [true, true, true];
  }

  /** A failed item does not stop the batch. In [a, b, c], b does not
      exist while a and c hold valid content, so the result is exactly
      [a.processed, c.processed]. Writing a.processed must not replace b or
      c for this to hold. */
  lemma BatchSkipsFailedItem(s: Env, a: string, b: string, c: string)
    requires a != [] && c != []
    requires a in s.files && IsValidContent(s.files[a])
    requires c in s.files && IsValidContent(s.files[c])
    requires b !in s.files && b != a + ProcessedSuffix && c != a + ProcessedSuffix
    ensures Batch(s, [a, b, c], [true, true, true]).1 == [a + ProcessedSuffix, c + ProcessedSuffix]
  {
    var s0 := s.(trace := s.trace + [Log(Info)]);
    var p1 := ProcessStep(s0, a, a + ProcessedSuffix, true);
    assert p1.1;
    BatchSkipsMissing(p1.0, b, c);
    BatchLoopSingle(s0, a, true);
    BatchLoopAppend(s0, [a], [true], [b, c], [true, true]);
    assert [a] + [b, c] == [a, b, c] && [true] + [true, true] == [true, true, true];
  }

  /** Running processFile twice with the same valid input writes the same
      output both times and counts the input size twice. The input must not
      be the output, or the second call reads what the first one wrote. */
  lemma ProcessTwice(s: Env, input: string, output: string)
    requires input != output
    requires ProcessStep(s, input, output, true).1
    ensures var s1 := ProcessStep(s, input, output, true).0;
            var r2 := ProcessStep(s1, input, output, true);
            r2.1 && r2.0.files[output] == s1.files[output] == Transform(s.files[input])
            && r2.0.total == s.total + 2 * |s.files[input]|
  {
  }

  // ---------------------------------------------------------------------
  // Any sequence of operations
  // ---------------------------------------------------------------------

  /** One public operation with the outcomes its collaborators report. */
  datatype Op =
    | ProcessOp(input: string, output: string, writeOk: bool)
    | DownloadOp(url: string, output: string, reply: Response, writeOk: bool)
    | BackupOp(name: string, writeOk: bool)
    | BatchOp(names: seq<string>, oks: seq<bool>)

  predicate WellFormed(op: Op)
  {
    op.BatchOp? ==> |op.oks| == |op.names|
  }

  function Apply(s: Env, op: Op): Env
    requires WellFormed(op)
  {
    match op
    case ProcessOp(input, output, ok) => ProcessStep(s, input, output, ok).0
    case DownloadOp(url, output, reply, ok) => DownloadStep(s, url, output, reply, ok).0
    case BackupOp(name, ok) => BackupStep(s, name, ok).0
    case BatchOp(names, oks) => Batch(s, names, oks).0
  }

  function Run(s: Env, ops: seq<Op>): Env
    requires forall i :: 0 <= i < |ops| ==> WellFormed(ops[i])
    decreases |ops|
  {
    if ops == [] then s else Run(Apply(s, ops[0]), ops[1..])
  }

  /** `totalProcessedSize` never decreases, whatever operations run and
      whatever the collaborators report. The trace only grows. */
  lemma {:induction false} TotalNeverDecreases(s: Env, ops: seq<Op>)
    requires forall i :: 0 <= i < |ops| ==> WellFormed(ops[i])
    ensures s.total <= Run(s, ops).total
    ensures s.trace <= Run(s, ops).trace
    decreases |ops|
  {
    if ops != [] {
      TotalNeverDecreases(Apply(s, ops[0]), ops[1..]);
    }
  }

  // ---------------------------------------------------------------------
  // The class
  // ---------------------------------------------------------------------

  /** FileProcessor. The file system is its map of contents. The network
      client and the logger are seen only through the calls recorded in
      `trace`. */
  class FileProcessor {
    var fileSystem: map<string, string>
    var totalProcessedSize: nat
    var trace: seq<Event>

    function State(): Env
      reads this
    {
      Env(fileSystem, totalProcessedSize, trace)
    }

    constructor (initialFiles: map<string, string>)
      ensures State() == Env(initialFiles, 0, [])
    {
      fileSystem := initialFiles;
      totalProcessedSize := 0;
      trace := [];
    }

    // Calls into the collaborators: each one is recorded in the trace.

    method CallLog(level: Level)
      modifies this
      ensures State() == old(State()).(trace := old(trace) + [Log(level)])
    {
      trace := trace + [Log(level)];
    }

    method CallFileExists(name: string) returns (found: bool)
      modifies this
      ensures found == (name in fileSystem)
      ensures State() == old(State()).(trace := old(trace) + [FileExists(name)])
    {
      found := name in fileSystem;
      trace := trace + [FileExists(name)];
    }

    method CallReadFile(name: string) returns (content: string)
      requires name in fileSystem
      modifies this
      ensures State() == old(State()).(trace := old(trace) + [ReadFile(name)])
      ensures content == fileSystem[name]
    {
      content := fileSystem[name];
      trace := trace + [ReadFile(name)];
    }

    /** `writeFile`; `reported` is what the file system answers. A failed
        write leaves the contents as they were. */
    method CallWriteFile(name: string, content: string, reported: bool) returns (success: bool)
      modifies this
      ensures success == reported
      ensures State() == old(State()).(files := if reported then old(fileSystem)[name := content] else old(fileSystem),
                                       trace := old(trace) + [WriteFile(name, content)])
    {
      if reported {
        fileSystem := fileSystem[name := content];
      }
      trace := trace + [WriteFile(name, content)];
      success := reported;
    }

    method CallSetTimeout(seconds: int)
      modifies this
      ensures State() == old(State()).(trace := old(trace) + [SetTimeout(seconds)])
    {
      trace := trace + [SetTimeout(seconds)];
    }

    method CallGet(url: string, reply: Response) returns (body: string)
      modifies this
      ensures body == reply.body
      ensures State() == old(State()).(trace := old(trace) + [Get(url)])
    {
      body := reply.body;
      trace := trace + [Get(url)];
    }

    method CallGetResponseCode(reply: Response) returns (code: int)
      modifies this
      ensures code == reply.status
      ensures State() == old(State()).(trace := old(trace) + [GetResponseCode])
    {
      code := reply.status;
      trace := trace + [GetResponseCode];
    }

    // The operations

    method ProcessFile(inputFile: string, outputFile: string, writeOk: bool) returns (success: bool)
      modifies this
      ensures (State(), success) == ProcessStep(old(State()), inputFile, outputFile, writeOk)
    {
      if inputFile == [] || outputFile == [] {
        CallLog(Error);
        return false;
      }
      var found := CallFileExists(inputFile);
      if !found {
        CallLog(Error);
        return false;
      }
      CallLog(Info);
      var content := CallReadFile(inputFile);
      if content == [] {
        CallLog(Warning);
        return false;
      }
      if !IsValidContent(content) {
        CallLog(Error);
        return false;
      }
      var transformed := Transform(content);
      success := CallWriteFile(outputFile, transformed, writeOk);
      if success {
        totalProcessedSize := totalProcessedSize + |content|;
        CallLog(Info);
      } else {
        CallLog(Error);
      }
    }

    method DownloadAndProcess(url: string, outputFile: string, reply: Response, writeOk: bool) returns (success: bool)
      modifies this
      ensures (State(), success) == DownloadStep(old(State()), url, outputFile, reply, writeOk)
    {
      if url == [] || outputFile == [] {
        CallLog(Error);
        return false;
      }
      CallLog(Info);
      CallSetTimeout(DownloadTimeout);
      var content := CallGet(url, reply);
      var code := CallGetResponseCode(reply);
      if code != HttpOk {
        CallLog(Error);
        return false;
      }
      if content == [] {
        CallLog(Warning);
        return false;
      }
      if !IsValidContent(content) {
        CallLog(Error);
        return false;
      }
      var transformed := Transform(content);
      success := CallWriteFile(outputFile, transformed, writeOk);
      if success {
        totalProcessedSize := totalProcessedSize + |content|;
        CallLog(Info);
      } else {
        CallLog(Error);
      }
    }

    method BackupFile(filename: string, writeOk: bool) returns (success: bool)
      modifies this
      ensures (State(), success) == BackupStep(old(State()), filename, writeOk)
    {
      if filename == [] {
        CallLog(Error);
        return false;
      }
      var found := CallFileExists(filename);
      if !found {
        CallLog(Error);
        return false;
      }
      var backupName := filename + BackupSuffix;
      var content := CallReadFile(filename);
      success := CallWriteFile(backupName, content, writeOk);
      if success {
        CallLog(Info);
      } else {
        CallLog(Error);
      }
    }

    /** `writeOks[i]` is what the file system answers to the write of item i,
        if that item gets as far as a write. */
    method ProcessMultipleFiles(files: seq<string>, writeOks: seq<bool>) returns (results: seq<string>)
      requires |writeOks| == |files|
      modifies this
      ensures (State(), results) == Batch(old(State()), files, writeOks)
    {
      CallLog(Info);
      ghost var start := State();
      results := [];
      var i := 0;
      while i < |files|
        invariant 0 <= i <= |files|
        invariant (State(), results) == BatchLoop(start, files[..i], writeOks[..i])
      {
        ghost var done := BatchLoop(start, files[..i], writeOks[..i]);
        var outputFile := files[i] + ProcessedSuffix;
        var ok := ProcessFile(files[i], outputFile, writeOks[i]);
        if ok {
          results := results + [outputFile];
        } else {
          ConcatEmpty(results);
        }
        BatchLoopAppend(start, files[..i], writeOks[..i], [files[i]], [writeOks[i]]);
        BatchLoopSingle(done.0, files[i], writeOks[i]);
        PrefixSnoc(files, i);
        PrefixSnoc(writeOks, i);
        i := i + 1;
      }
      PrefixAll(files);
      PrefixAll(writeOks);
      CallLog(Info);
    }

    method GetTotalProcessedSize() returns (size: nat)
      ensures size == totalProcessedSize
    {
      size := totalProcessedSize;
    }
  }
}

=== FILE: interfaces.dfy ===
/**
 * What FileProcessor and UserService need to know about their abstract collaborators (src/interfaces.hpp).
 * The storage interfaces are modelled by the classes that own them, as maps;
 * here are only the values shared between components.
 */
module Interfaces {

  /** The four ILogger entry points; a log call is recorded by its level only. */
  datatype Level = Info | Warning | Error | Debug

  /** What an INetworkClient yields for one `get`: the body, and the status
      code that `getResponseCode` reports afterwards. */
  datatype Response = Response(status: int, body: string)

  /** The status code downloadAndProcess accepts as a successful download. */
  const HttpOk := 200
}

=== FILE: math_utils.dfy ===
/**
 * The integer helpers of namespace MathUtils (src/math_utils.cpp).
 *
 * `factorial`, `power` and `isPrime` are loops over accumulators. Each is a
 * method proved against a reference definition: recursive for `factorial`
 * and `power`, and the definition of a prime for `isPrime`. `findMax` and
 * `numberToWords` are functions. The argument guards that throw
 * std::invalid_argument become `Failure` results. C++ `int` is modelled by
 * unbounded integers; see FactorialFitsInInt for where the two agree.
 */
module MathUtils {
  import opened Wrappers

  const Int32Max := 0x7fff_ffff

  // ---------------------------------------------------------------------
  // divide and average: only their guards and what the quotient means
  // ---------------------------------------------------------------------

  /** `divide(a, b)`: rejects a zero divisor; otherwise the exact quotient. */
  function Divide(a: real, b: real): (r: Result<real>)
    ensures r.Failure? <==> b == 0.0
    ensures r.Failure? ==> r.error == InvalidArgument("Division by zero")
    ensures r.Success? ==> r.value * b == a
  {
    if b == 0.0 then Failure(InvalidArgument("Division by zero")) else Success(a / b)
  }

  function Sum(numbers: seq<int>): int
  {
    if numbers == [] then 0 else numbers[0] + Sum(numbers[1..])
  }

  /** `average(numbers)`: rejects an empty vector; otherwise the exact mean. */
  function Average(numbers: seq<int>): (r: Result<real>)
    ensures r.Failure? <==> numbers == []
    ensures r.Failure? ==> r.error == InvalidArgument("Cannot calculate average of empty vector")
    ensures r.Success? ==> r.value * (|numbers| as real) == Sum(numbers) as real
  {
    if numbers == [] then Failure(InvalidArgument("Cannot calculate average of empty vector"))
    else Success(Sum(numbers) as real / |numbers| as real)
  }

  // ---------------------------------------------------------------------
  // factorial
  // ---------------------------------------------------------------------

  /** n!: 0! = 1! = 1 and n! = n * (n - 1)! from 2 on. */
  function Fact(n: nat): nat
  {
    if n <= 1 then 1 else n * Fact(n - 1)
  }

  method Factorial(n: int) returns (r: Result<int>)
    ensures r.Failure? <==> n < 0
    ensures r.Failure? ==> r.error == InvalidArgument("Factorial of negative number")
    ensures n >= 0 ==> r == Success(Fact(n))
  {
    if n < 0 {
      return Failure(InvalidArgument("Factorial of negative number"));
    }
    if n == 0 || n == 1 {
      return Success(1);
    }
    var result := 1;
    var i := 2;
    while i <= n
      invariant 2 <= i <= n + 1
      invariant result == Fact(i - 1)
    {
      result := result * i;
      i := i + 1;
    }
    return Success(result);
  }

  lemma {:induction false} FactMonotone(m: nat, n: nat)
    requires m <= n
    ensures Fact(m) <= Fact(n)
    decreases n
  {
    if m < n {
      FactMonotone(m, n - 1);
      MulLe(1, Fact(n - 1), n, Fact(n - 1));
    }
  }

  /** The results agree with 32-bit `int` exactly up to n = 12; 13! is too
      large for it. */
  lemma FactorialFitsInInt(n: nat)
    ensures n <= 12 ==> Fact(n) <= Int32Max
    ensures n >= 13 ==> Fact(n) > Int32Max
  {
    assert Fact(12) == 479001600 by {
      assert Fact(4) == 24;
      assert Fact(8) == 40320;
    }
    assert Fact(13) == 13 * Fact(12);
    if n <= 12 {
      FactMonotone(n, 12);
    } else {
      FactMonotone(13, n);
    }
  }

  // ---------------------------------------------------------------------
  // isPrime
  // ---------------------------------------------------------------------

  /** The reference definition: at least 2 and no divisor strictly between
      1 and itself. */
  predicate Prime(n: int)
  {
    n >= 2 && forall d :: 2 <= d < n ==> n % d != 0
  }

  lemma MulLe(a: int, b: int, c: int, e: int)
    requires 0 <= a && 0 <= b
    ensures a <= c && b <= e ==> a * b <= c * e
  {
    if a <= c && b <= e {
      assert a * b <= c * b;
      assert c * b <= c * e;
    }
  }

  lemma MulAtLeast(k: int, m: int)
    requires k > 0
    ensures m >= 1 ==> k * m >= k
    ensures m <= -1 ==> k * m <= -k
  {
  }

  /** A multiple of k leaves no remainder when divided by k. */
  lemma MultipleMod(k: int, d: int)
    requires k > 0
    ensures (k * d) % k == 0
  {
    var q, r := (k * d) / k, (k * d) % k;
    assert k * d == k * q + r;
    assert k * (d - q) == r;
    MulAtLeast(k, d - q);
  }

  /** An odd number has no even divisor. */
  lemma EvenDivisorMakesEven(n: int, d: int)
    requires d >= 2 && d % 2 == 0
    ensures n % d == 0 ==> n % 2 == 0
  {
    if n % d == 0 {
      var q := n / d;
      var h := d / 2;
      assert n == d * q;
      assert d == 2 * h;
      assert n == 2 * (h * q);
    }
  }

  /** A divisor d of n with i <= d < n and i * i > n has a cofactor n / d
      that is a divisor below i. */
  lemma SmallCofactor(n: int, d: int, i: int)
    requires 1 <= i <= d < n && i * i > n
    ensures n % d == 0 ==> 2 <= n / d < i && n % (n / d) == 0
  {
    if n % d == 0 {
      var k := n / d;
      assert n == d * k;
      MulAtLeast(d, k);
      assert k >= 1;
      MulLe(d, k, d, 1);
      assert k >= 2;
      MulLe(i, i, d, k);
      assert k < i;
      assert n == k * d;
      MultipleMod(k, d);
    }
  }

  /** Once no divisor below i exists and i * i > n, n is prime. */
  lemma NoDivisorAbove(n: int, i: int)
    requires n >= 2 && 1 <= i && i * i > n
    requires forall d :: 2 <= d < i ==> n % d != 0
    ensures Prime(n)
  {
    forall d | i <= d < n
      ensures n % d != 0
    {
      SmallCofactor(n, d, i);
    }
  }

  /** `isPrime`: trial division by 2 and then by odd i while i * i <= n. */
  method IsPrime(n: int) returns (prime: bool)
    ensures prime == Prime(n)
  {
    if n < 2 {
      return false;
    }
    if n == 2 {
      return true;
    }
    if n % 2 == 0 {
      return false;
    }
    var i := 3;
    while i * i <= n
      invariant 3 <= i && i % 2 == 1
      invariant forall d :: 2 <= d < i ==> n % d != 0
      decreases n - i * i
    {
      if n % i == 0 {
        BelowSquare(n, i);
        return false;
      }
      NextOddCandidate(n, i);
      SquareGrows(i);
      i := i + 2;
    }
    NoDivisorAbove(n, i);
    return true;
  }

  /** A divisor i found by the loop is a proper divisor. */
  lemma BelowSquare(n: int, i: int)
    requires 3 <= i && i * i <= n && n % i == 0
    ensures 2 <= i < n && !Prime(n)
  {
    MulLe(1, i, i, i);
  }

  lemma SquareGrows(i: int)
    requires i >= 0
    ensures (i + 2) * (i + 2) == i * i + 4 * i + 4
  {
  }

  /** Skipping the even number i + 1 keeps "no divisor below i" true. */
  lemma NextOddCandidate(n: int, i: int)
    requires n % 2 == 1 && 3 <= i && i % 2 == 1 && n % i != 0
    requires forall d :: 2 <= d < i ==> n % d != 0
    ensures forall d :: 2 <= d < i + 2 ==> n % d != 0
  {
    EvenDivisorMakesEven(n, i + 1);
  }

  // ---------------------------------------------------------------------
  // power
  // ---------------------------------------------------------------------

  /** base multiplied by itself e times; base^0 = 1 for every base, 0 too. */
  function Pow(base: int, e: nat): int
  {
    if e == 0 then 1 else base * Pow(base, e - 1)
  }

  /** Multiplying powers of one base adds the exponents. */
  lemma {:induction false} PowAdd(base: int, m: nat, n: nat)
    ensures Pow(base, m + n) == Pow(base, m) * Pow(base, n)
    decreases m
  {
    if m > 0 {
      PowAdd(base, m - 1, n);
      assert Pow(base, m + n) == base * Pow(base, m - 1 + n);
    }
  }

  /** The cases the tests check: 2^3 = 8, 10^0 = 1, 0^0 = 1. */
  lemma PowExamples()
    ensures Pow(2, 3) == 8 && Pow(10, 0) == 1 && Pow(0, 0) == 1
  {
  }

  method Power(base: int, exponent: int) returns (r: Result<int>)
    ensures r.Failure? <==> exponent < 0
    ensures r.Failure? ==> r.error == InvalidArgument("Negative exponent not supported")
    ensures exponent >= 0 ==> r == Success(Pow(base, exponent))
  {
    if exponent < 0 {
      return Failure(InvalidArgument("Negative exponent not supported"));
    }
    if exponent == 0 {
      return Success(1);
    }
    var result := 1;
    var i := 0;
    while i < exponent
      invariant 0 <= i <= exponent
      invariant result == Pow(base, i)
    {
      result := result * base;
      i := i + 1;
    }
    return Success(result);
  }

  // ---------------------------------------------------------------------
  // findMax
  // ---------------------------------------------------------------------

  /** The largest element of a non-empty sequence. */
  function MaxOf(numbers: seq<int>): (m: int)
    requires numbers != []
    ensures m in numbers
    ensures forall x :: x in numbers ==> x <= m
  {
    if |numbers| == 1 then numbers[0]
    else
      var rest := MaxOf(numbers[1..]);
      assert numbers == [numbers[0]] + numbers[1..];
      if numbers[0] >= rest then numbers[0] else rest
  }

  /** `findMax`: rejects an empty vector; otherwise an element that is at
      least every element. */
  function FindMax(numbers: seq<int>): (r: Result<int>)
    ensures r.Failure? <==> numbers == []
    ensures r.Failure? ==> r.error == InvalidArgument("Cannot find max of empty vector")
    ensures r.Success? ==> r.value in numbers && forall x :: x in numbers ==> x <= r.value
  {
    if numbers == [] then Failure(InvalidArgument("Cannot find max of empty vector"))
    else Success(MaxOf(numbers))
  }

  // ---------------------------------------------------------------------
  // numberToWords
  // ---------------------------------------------------------------------

  const Ones: seq<string> :=
    ["zero", "one", "two", "three", "four", "five", "six", "seven", "eight", "nine"]
  const Teens: seq<string> :=
    ["ten", "eleven", "twelve", "thirteen", "fourteen", "fifteen",
     "sixteen", "seventeen", "eighteen", "nineteen"]
  const Tens: seq<string> :=
    ["", "", "twenty", "thirty", "forty", "fifty", "sixty", "seventy", "eighty", "ninety"]

  /** The words for 0 <= n <= 99 read from the given tables. */
  function Spell(ones: seq<string>, teens: seq<string>, tens: seq<string>, n: int): string
    requires |ones| == 10 && |teens| == 10 && |tens| == 10 && 0 <= n <= 99
  {
    if n < 10 then ones[n]
    else if n < 20 then teens[n - 10]
    else
      var result := tens[n / 10];
      if n % 10 != 0 then result + " " + ones[n % 10] else result
  }

  /** `numberToWords(n)`: rejects n outside 0..99. */
  function NumberToWords(n: int): (r: Result<string>)
    ensures r.Failure? <==> n < 0 || n > 99
    ensures r.Failure? ==> r.error == InvalidArgument("Only numbers 0-99 supported")
  {
    if n < 0 || n > 99 then Failure(InvalidArgument("Only numbers 0-99 supported"))
    else Success(Spell(Ones, Teens, Tens, n))
  }

  /** The first position of x in s. */
  function Find<T(==)>(s: seq<T>, x: T): (r: Option<nat>)
    ensures r.Some? ==> r.value < |s| && s[r.value] == x
                        && forall j :: 0 <= j < r.value ==> s[j] != x
    ensures r.None? ==> x !in s
  {
    if s == [] then None
    else if s[0] == x then Some(0)
    else match Find(s[1..], x)
      case None => None
      case Some(k) => Some(k + 1)
  }

  /** Reads words back into a number, given the three word tables: the
      inverse of NumberToWords when the tables are well formed. */
  function ReadWords(ones: seq<string>, teens: seq<string>, tens: seq<string>, w: string): Option<int>
  {
    match Find(ones, w)
    case Some(i) => Some(i)
    case None =>
      match Find(teens, w)
      case Some(i) => Some(10 + i)
      case None =>
        match Find(w, ' ')
        case None =>
          (match Find(tens, w)
           case Some(t) => if t >= 2 then Some(10 * t) else None
           case None => None)
        case Some(k) =>
          (match (Find(tens, w[..k]), Find(ones, w[k + 1..]))
           case (Some(t), Some(o)) => if t >= 2 && o >= 1 then Some(10 * t + o) else None
           case _ => None)
  }

  /** The inverse of NumberToWords over its own tables. */
  function WordsToNumber(w: string): Option<int>
  {
    ReadWords(Ones, Teens, Tens, w)
  }

  ghost predicate Distinct(table: seq<string>, from: nat)
  {
    forall i, j :: from <= i < j < |table| ==> table[i] != table[j]
  }

  ghost predicate NoSpace(table: seq<string>)
  {
    forall i, k :: 0 <= i < |table| && 0 <= k < |table[i]| ==> table[i][k] != ' '
  }

  /** What the round trip needs of the tables: ten words each, no word
      repeated within a table or shared between tables, no spaces, and
      non-empty tens words from "twenty" on. */
  ghost predicate TablesWellFormed(ones: seq<string>, teens: seq<string>, tens: seq<string>)
  {
    |ones| == 10 && |teens| == 10 && |tens| == 10
    && Distinct(ones, 0) && Distinct(teens, 0) && Distinct(tens, 2)
    && NoSpace(ones) && NoSpace(teens) && NoSpace(tens)
    && (forall i, j :: 0 <= i < 10 && 0 <= j < 10 ==> ones[i] != teens[j])
    && (forall i, j :: 0 <= i < 10 && 2 <= j < 10 ==> ones[i] != tens[j] && teens[i] != tens[j])
    && tens[0] == [] && tens[1] == [] && (forall j :: 2 <= j < 10 ==> tens[j] != [])
  }

  lemma OnesWellFormed()
    ensures Distinct(Ones, 0) && NoSpace(Ones)
  {
  }

  lemma TeensWellFormed()
    ensures Distinct(Teens, 0) && NoSpace(Teens)
    ensures forall i, j :: 0 <= i < 10 && 0 <= j < 10 ==> Ones[i] != Teens[j]
  {
  }

  lemma TensWellFormed()
    ensures Distinct(Tens, 2) && NoSpace(Tens)
    ensures Tens[0] == [] && Tens[1] == [] && forall j :: 2 <= j < 10 ==> Tens[j] != []
    ensures forall i, j :: 0 <= i < 10 && 2 <= j < 10 ==> Ones[i] != Tens[j] && Teens[i] != Tens[j]
  {
  }

  lemma NumberTablesWellFormed()
    ensures TablesWellFormed(Ones, Teens, Tens)
  {
    OnesWellFormed();
    TeensWellFormed();
    TensWellFormed();
  }

  /** Find locates an entry of a table whose entries from `from` on are
      distinct, when no earlier entry equals it. */
  lemma FindDistinct(table: seq<string>, from: nat, i: nat)
    requires Distinct(table, from) && from <= i < |table|
    requires forall j :: 0 <= j < from ==> table[j] != table[i]
    ensures Find(table, table[i]) == Some(i)
  {
  }

  /** A word with no space is not found in a table of words without
      spaces once it contains a space. */
  lemma FindSpaced(table: seq<string>, w: string, k: nat)
    requires NoSpace(table) && k < |w| && w[k] == ' '
    ensures Find(table, w).None?
  {
  }

  lemma ReadOnesIn(ones: seq<string>, teens: seq<string>, tens: seq<string>, o: nat)
    requires TablesWellFormed(ones, teens, tens) && o < 10
    ensures ReadWords(ones, teens, tens, ones[o]) == Some(o)
  {
    FindDistinct(ones, 0, o);
  }

  lemma ReadTeensIn(ones: seq<string>, teens: seq<string>, tens: seq<string>, j: nat)
    requires TablesWellFormed(ones, teens, tens) && j < 10
    ensures ReadWords(ones, teens, tens, teens[j]) == Some(10 + j)
  {
    assert teens[j] !in ones;
    FindDistinct(teens, 0, j);
  }

  lemma ReadTensIn(ones: seq<string>, teens: seq<string>, tens: seq<string>, t: nat)
    requires TablesWellFormed(ones, teens, tens) && 2 <= t < 10
    ensures ReadWords(ones, teens, tens, tens[t]) == Some(10 * t)
  {
    var w := tens[t];
    assert w !in ones && w !in teens;
    FindDistinct(tens, 2, t);
  }

  /** "x y" with no space in x splits at position |x| into x and y. */
  lemma SplitAtSpace(x: string, y: string)
    requires ' ' !in x
    ensures var w := x + " " + y;
            |x| < |w| && w[|x|] == ' ' && Find(w, ' ') == Some(|x|)
            && w[..|x|] == x && w[|x| + 1..] == y
  {
    var w := x + " " + y;
    assert forall j :: 0 <= j < |x| ==> w[j] == x[j];
  }

  lemma ReadCompoundIn(ones: seq<string>, teens: seq<string>, tens: seq<string>, t: nat, o: nat)
    requires TablesWellFormed(ones, teens, tens) && 2 <= t < 10 && 1 <= o < 10
    ensures ReadWords(ones, teens, tens, tens[t] + " " + ones[o]) == Some(10 * t + o)
  {
    var x, y := tens[t], ones[o];
    assert ' ' !in x;
    SplitAtSpace(x, y);
    FindSpaced(ones, x + " " + y, |x|);
    FindSpaced(teens, x + " " + y, |x|);
    FindDistinct(tens, 2, t);
    FindDistinct(ones, 0, o);
  }

  /** Over well-formed tables, reading the spelled words of n gives n. */
  lemma SpellRoundTrip(ones: seq<string>, teens: seq<string>, tens: seq<string>, n: int)
    requires TablesWellFormed(ones, teens, tens) && 0 <= n <= 99
    ensures ReadWords(ones, teens, tens, Spell(ones, teens, tens, n)) == Some(n)
  {
    var words := Spell(ones, teens, tens, n);
    if n < 10 {
      ReadOnesIn(ones, teens, tens, n);
    } else if n < 20 {
      ReadTeensIn(ones, teens, tens, n - 10);
    } else {
      var t, o := n / 10, n % 10;
      assert 10 * t + o == n && 2 <= t < 10;
      if o == 0 {
        assert words == tens[t];
        ReadTensIn(ones, teens, tens, t);
      } else {
        assert words == tens[t] + " " + ones[o];
        ReadCompoundIn(ones, teens, tens, t, o);
      }
    }
  }

  /** Reading the words of any n in 0..99 gives back n. */
  lemma WordsRoundTrip(n: int)
    requires 0 <= n <= 99
    ensures WordsToNumber(NumberToWords(n).value) == Some(n)
  {
    NumberTablesWellFormed();
    SpellRoundTrip(Ones, Teens, Tens, n);
  }

  /** Distinct numbers get distinct words. */
  lemma NumberToWordsInjective(m: int, n: int)
    requires 0 <= m <= 99 && 0 <= n <= 99
    ensures NumberToWords(m) == NumberToWords(n) ==> m == n
  {
    WordsRoundTrip(m);
    WordsRoundTrip(n);
  }

  /** Examples the tests check. */
  lemma NumberToWordsExamples()
    ensures NumberToWords(0) == Success("zero")
    ensures NumberToWords(15) == Success("fifteen")
    ensures NumberToWords(50) == Success("fifty")
    ensures NumberToWords(21) == Success("twenty one")
  {
    assert Spell(Ones, Teens, Tens, 21) == "twenty" + " " + "one";
    assert "twenty" + " " + "one" == "twenty one";
  }
}

=== FILE: user_service.dfy ===
/**
 * UserService (src/user_service.cpp): create, read, update and delete of
 * user records kept in an abstract key-value database, with the
 * `id|name|email` serialiser and the `getline`-based parser.
 *
 * As for the file processor, the operations are pure step functions on a
 * `Db` value (the stored records and the trace of collaborator calls), and
 * the class `UserService` makes the calls one by one and is proved to agree
 * with them. Whether `save` and `remove` succeed is a parameter.
 *
 * The parser is modelled twice on purpose: `ParseUser` is the
 * specification, and `UserService.StringToUser` advances a `LineStream`
 * through three `getline` calls as the source does.
 */
module Users {
  import opened Wrappers
  import opened Interfaces

  datatype User = User(id: string, name: string, email: string)

  /** The message `stringToUser` throws with. */
  const FormatError := "Invalid user data format"

  // ---------------------------------------------------------------------
  // userToString and stringToUser
  // ---------------------------------------------------------------------

  /** `userToString`: the three fields joined by '|'. */
  function UserToString(u: User): string
  {
    u.id + "|" + u.name + "|" + u.email
  }

  /** The characters a `getline` call stores: everything up to, and not
      including, the first `delim`, or all of `rest` when there is none. */
  function FieldOf(rest: string, delim: char): string
  {
    if rest == [] || rest[0] == delim then []
    else [rest[0]] + FieldOf(rest[1..], delim)
  }

  /** The stored characters begin `rest`, contain no delimiter, and are
      followed by the delimiter unless they are all of `rest`. */
  lemma {:induction false} FieldOfSpec(rest: string, delim: char)
    ensures FieldOf(rest, delim) <= rest && delim !in FieldOf(rest, delim)
    ensures |FieldOf(rest, delim)| < |rest| ==> rest[|FieldOf(rest, delim)|] == delim
  {
    if rest != [] && rest[0] != delim {
      FieldOfSpec(rest[1..], delim);
    }
  }

  /** An input string stream: the text, the read position and the eof bit. */
  datatype Cursor = Cursor(data: string, pos: nat, eof: bool)

  /** `std::getline(stream, field, delim)`: (succeeded, field, stream after).
      A call fails when the eof bit is already set, or when it extracts
      nothing at all because the stream is at its end. Otherwise it stores
      the characters up to the delimiter and consumes the delimiter too; if
      it runs into the end instead, it sets the eof bit. */
  function NextField(c: Cursor, delim: char): (r: (bool, string, Cursor))
    requires c.pos <= |c.data|
    ensures r.2.data == c.data && r.2.pos <= |c.data|
    ensures r.0 <==> !c.eof && c.pos < |c.data|
    ensures r.0 ==> c.pos + |r.1| <= |c.data| && c.data[c.pos..c.pos + |r.1|] == r.1 && delim !in r.1
    ensures r.0 && r.2.eof ==> c.pos + |r.1| == |c.data|
    ensures r.0 && !r.2.eof ==> c.pos + |r.1| < |c.data| && c.data[c.pos + |r.1|] == delim
                                && r.2.pos == c.pos + |r.1| + 1
  {
    if c.eof then (false, [], c)
    else
      var f := FieldOf(c.data[c.pos..], delim);
      FieldOfSpec(c.data[c.pos..], delim);
      var end := c.pos + |f|;
      if end == |c.data| then (f != [], f, Cursor(c.data, end, true))
      else (true, f, Cursor(c.data, end + 1, false))
  }

  /** `stringToUser`: id and name end at a '|', the email at a newline or
      at the end of the text. */
  function ParseUser(data: string): Result<User>
  {
    var r1 := NextField(Cursor(data, 0, false), '|');
    if !r1.0 then Failure(InvalidArgument(FormatError))
    else
      var r2 := NextField(r1.2, '|');
      if !r2.0 then Failure(InvalidArgument(FormatError))
      else
        var r3 := NextField(r2.2, '\n');
        if !r3.0 then Failure(InvalidArgument(FormatError))
        else Success(User(r1.1, r2.1, r3.1))
  }

  /** FieldOf stops at the first delimiter and at nothing else. */
  lemma {:induction false} FieldOfPrefix(x: string, delim: char, y: string)
    requires delim !in x
    ensures FieldOf(x + [delim] + y, delim) == x
  {
    if x != [] {
      assert (x + [delim] + y)[1..] == x[1..] + [delim] + y;
      FieldOfPrefix(x[1..], delim, y);
    }
  }

  lemma {:induction false} FieldOfWhole(x: string, delim: char)
    requires delim !in x
    ensures FieldOf(x, delim) == x
  {
    if x != [] {
      FieldOfWhole(x[1..], delim);
    }
  }

  /** Parsing fails with the format error whenever it fails. */
  lemma ParseUserError(data: string)
    ensures ParseUser(data).Failure? ==> ParseUser(data).error == InvalidArgument(FormatError)
  {
  }

  /** `stringToUser` succeeds exactly when the text has two '|' separators
      and at least one character after the second of them. */
  lemma ParseUserSuccessIff(data: string)
    ensures ParseUser(data).Success? <==>
            exists i, j :: 0 <= i < j && j + 1 < |data| && data[i] == '|' && data[j] == '|'
  {
    var r1 := NextField(Cursor(data, 0, false), '|');
    if ParseUser(data).Success? {
      var r2 := NextField(r1.2, '|');
      var i := |r1.1|;
      var j := r1.2.pos + |r2.1|;
      assert data[i] == '|' && data[j] == '|' && j + 1 < |data|;
    } else {
      forall i, j | 0 <= i < j && j + 1 < |data| && data[i] == '|'
        ensures data[j] != '|'
      {
      }
    }
  }

  /** The round trip holds exactly when the id and the name contain no '|'
      and the email is non-empty and contains no newline. */
  lemma RoundTripIff(u: User)
    ensures ParseUser(UserToString(u)) == Success(u) <==>
            '|' !in u.id && '|' !in u.name && u.email != [] && '\n' !in u.email
  {
    var data := UserToString(u);
    var r1 := NextField(Cursor(data, 0, false), '|');
    if '|' !in u.id && '|' !in u.name {
      assert data == u.id + ['|'] + (u.name + "|" + u.email);
      FieldOfPrefix(u.id, '|', u.name + "|" + u.email);
      assert r1.1 == u.id && r1.2.pos == |u.id| + 1;
      var rest := data[|u.id| + 1..];
      assert rest == u.name + ['|'] + u.email;
      FieldOfPrefix(u.name, '|', u.email);
      var r2 := NextField(r1.2, '|');
      assert r2.1 == u.name && r2.2.pos == |u.id| + |u.name| + 2;
      assert data[r2.2.pos..] == u.email;
      if u.email != [] && '\n' !in u.email {
        FieldOfWhole(u.email, '\n');
      }
    }
  }

  /** The character loop of `getline`: collects characters of `text` from
      position `from` until the delimiter or the end. */
  method ScanField(text: string, from: nat, delim: char) returns (field: string)
    requires from <= |text|
    ensures field == FieldOf(text[from..], delim)
  {
    var i := from;
    field := [];
    while i < |text| && text[i] != delim
      invariant from <= i <= |text|
      invariant FieldOf(text[from..], delim) == field + FieldOf(text[i..], delim)
    {
      FieldOfStep(text, i, delim);
      ghost var tail := FieldOf(text[i + 1..], delim);
      assert field + ([text[i]] + tail) == (field + [text[i]]) + tail;
      field := field + [text[i]];
      i := i + 1;
    }
    assert FieldOf(text[i..], delim) == [] by {
      if i < |text| {
        assert text[i..][0] == delim;
      }
    }
    assert field + [] == field;
  }

  /** One step of the character loop. */
  lemma FieldOfStep(text: string, i: nat, delim: char)
    requires i < |text| && text[i] != delim
    ensures FieldOf(text[i..], delim) == [text[i]] + FieldOf(text[i + 1..], delim)
  {
    assert text[i..][0] == text[i];
    assert text[i..][1..] == text[i + 1..];
  }

  /** A stateful input string stream over a fixed text. */
  class LineStream {
    const data: string
    var pos: nat
    var eof: bool

    function At(): Cursor
      reads this
    {
      Cursor(data, pos, eof)
    }

    constructor (text: string)
      ensures At() == Cursor(text, 0, false)
    {
      data := text;
      pos := 0;
      eof := false;
    }

    /** `std::getline(*this, field, delim)`, one character at a time. */
    method GetLine(delim: char) returns (ok: bool, field: string)
      requires pos <= |data|
      modifies this
      ensures (ok, field, At()) == NextField(old(At()), delim)
    {
      if eof {
        return false, [];
      }
      field := ScanField(data, pos, delim);
      var i := pos + |field|;
      if i == |data| {
        ok := i > pos;
        pos := i;
        eof := true;
      } else {
        pos := i + 1;
        ok := true;
      }
    }
  }

  // ---------------------------------------------------------------------
  // The service operations, as functions of the state before them
  // ---------------------------------------------------------------------

  /** One call into a collaborator (database or logger). */
  datatype DbCall =
    | Exists(key: string)
    | Load(key: string)
    | Save(key: string, value: string)
    | Remove(key: string)
    | Log(level: Level)

  /** The stored records, and every collaborator call made so far. */
  datatype Db = Db(records: map<string, string>, trace: seq<DbCall>)

  /** Every call recorded from position `from` on is a log call. */
  ghost predicate OnlyLogsAfter(trace: seq<DbCall>, from: nat)
  {
    forall i :: from <= i < |trace| ==> trace[i].Log?
  }

  /** Nothing was saved or removed from position `from` on. */
  ghost predicate NoStoreAfter(trace: seq<DbCall>, from: nat)
  {
    forall i :: from <= i < |trace| ==> !trace[i].Save? && !trace[i].Remove?
  }

  /** Every `load` from position `from` on was for a key in `records`. */
  ghost predicate LoadsExisting(trace: seq<DbCall>, from: nat, records: map<string, string>)
  {
    forall i :: from <= i < |trace| && trace[i].Load? ==> trace[i].key in records
  }

  /** Saves `u` under its id; the database answers `saveOk`. A failed save
      leaves the records as they were. */
  function Store(s: Db, trace: seq<DbCall>, u: User, saveOk: bool): (Db, bool)
  {
    var saved := trace + [Save(u.id, UserToString(u))];
    if saveOk then (Db(s.records[u.id := UserToString(u)], saved + [Log(Info)]), true)
    else (Db(s.records, saved + [Log(Level.Error)]), false)
  }

  /** `createUser(u)` when `save` would return `saveOk`. */
  function CreateStep(s: Db, u: User, saveOk: bool): (r: (Db, bool))
    ensures s.trace < r.0.trace
    ensures r.1 <==> u.id != [] && u.name != [] && u.email != [] && u.id !in s.records && saveOk
    ensures r.1 ==> r.0.records == s.records[u.id := UserToString(u)]
    ensures !r.1 ==> r.0.records == s.records
  {
    if u.id == [] || u.name == [] || u.email == [] then
      (s.(trace := s.trace + [Log(Level.Error)]), false)
    else if u.id in s.records then
      (s.(trace := s.trace + [Exists(u.id)] + [Log(Warning)]), false)
    else
      Store(s, s.trace + [Exists(u.id)], u, saveOk)
  }

  /** `getUser(id)`: the stored user, if the id is non-empty and known and
      its record is non-empty and parses. */
  function GetStep(s: Db, id: string): (r: (Db, Option<User>))
    ensures r.0.records == s.records && s.trace < r.0.trace
    ensures r.1.Some? <==> id != [] && id in s.records && s.records[id] != []
                           && ParseUser(s.records[id]).Success?
    ensures r.1.Some? ==> ParseUser(s.records[id]) == Success(r.1.value)
  {
    if id == [] then
      (s.(trace := s.trace + [Log(Level.Error)]), None)
    else if id !in s.records then
      (s.(trace := s.trace + [Exists(id)] + [Log(Warning)]), None)
    else
      var loaded := s.trace + [Exists(id)] + [Load(id)];
      var data := s.records[id];
      if data == [] then
        (s.(trace := loaded + [Log(Level.Error)]), None)
      else
        match ParseUser(data)
        case Success(u) => (s.(trace := loaded + [Log(Info)]), Some(u))
        case Failure(_) => (s.(trace := loaded + [Log(Level.Error)]), None)
  }

  /** `updateUser(u)` when `save` would return `saveOk`. Only the id is
      checked; an empty name or email is stored as it is. */
  function UpdateStep(s: Db, u: User, saveOk: bool): (r: (Db, bool))
    ensures s.trace < r.0.trace
    ensures r.1 <==> u.id != [] && u.id in s.records && saveOk
    ensures r.1 ==> r.0.records == s.records[u.id := UserToString(u)]
    ensures !r.1 ==> r.0.records == s.records
  {
    if u.id == [] then
      (s.(trace := s.trace + [Log(Level.Error)]), false)
    else if u.id !in s.records then
      (s.(trace := s.trace + [Exists(u.id)] + [Log(Warning)]), false)
    else
      Store(s, s.trace + [Exists(u.id)], u, saveOk)
  }

  /** `deleteUser(id)` when `remove` would return `removeOk`. A failed
      remove leaves the records as they were. */
  function DeleteStep(s: Db, id: string, removeOk: bool): (r: (Db, bool))
    ensures s.trace < r.0.trace
    ensures r.1 <==> id != [] && id in s.records && removeOk
    ensures r.1 ==> r.0.records == s.records - {id}
    ensures !r.1 ==> r.0.records == s.records
  {
    if id == [] then
      (s.(trace := s.trace + [Log(Level.Error)]), false)
    else if id !in s.records then
      (s.(trace := s.trace + [Exists(id)] + [Log(Warning)]), false)
    else
      var removed := s.trace + [Exists(id)] + [Remove(id)];
      if removeOk then (Db(s.records - {id}, removed + [Log(Info)]), true)
      else (Db(s.records, removed + [Log(Level.Error)]), false)
  }

  /** The calls createUser makes: only log calls when a field is empty;
      no save or remove when the id exists; every save is of
      `userToString(u)` under `u.id`; once the guards pass, exactly one
      save is attempted, whatever it reports. */
  lemma CreateCalls(s: Db, u: User, saveOk: bool)
    ensures var t := CreateStep(s, u, saveOk).0.trace;
            (u.id == [] || u.name == [] || u.email == [] ==> OnlyLogsAfter(t, |s.trace|))
            && (u.id in s.records ==> NoStoreAfter(t, |s.trace|))
            && (forall i :: |s.trace| <= i < |t| && t[i].Save? ==> t[i] == Save(u.id, UserToString(u)))
            && (u.id != [] && u.name != [] && u.email != [] && u.id !in s.records ==>
                  |t| == |s.trace| + 3 && t[|s.trace|] == Exists(u.id)
                  && t[|s.trace| + 1] == Save(u.id, UserToString(u)) && t[|s.trace| + 2].Log?)
  {
  }

  /** The calls getUser makes: only log calls for an empty id; never a save
      or remove; a load only of an id that exists. */
  lemma GetCalls(s: Db, id: string)
    ensures var t := GetStep(s, id).0.trace;
            (id == [] ==> OnlyLogsAfter(t, |s.trace|))
            && NoStoreAfter(t, |s.trace|) && LoadsExisting(t, |s.trace|, s.records)
  {
  }

  /** The calls updateUser makes: only log calls for an empty id; no save
      or remove when the id is missing; every save is of `userToString(u)`
      under `u.id`; once the guards pass, exactly one save is attempted,
      whatever it reports. */
  lemma UpdateCalls(s: Db, u: User, saveOk: bool)
    ensures var t := UpdateStep(s, u, saveOk).0.trace;
            (u.id == [] ==> OnlyLogsAfter(t, |s.trace|))
            && (u.id !in s.records ==> NoStoreAfter(t, |s.trace|))
            && (forall i :: |s.trace| <= i < |t| && t[i].Save? ==> t[i] == Save(u.id, UserToString(u)))
            && (u.id != [] && u.id in s.records ==>
                  |t| == |s.trace| + 3 && t[|s.trace|] == Exists(u.id)
                  && t[|s.trace| + 1] == Save(u.id, UserToString(u)) && t[|s.trace| + 2].Log?)
  {
  }

  /** The calls deleteUser makes: only log calls for an empty id; no save
      or remove when the id is missing. */
  lemma DeleteCalls(s: Db, id: string, removeOk: bool)
    ensures var t := DeleteStep(s, id, removeOk).0.trace;
            (id == [] ==> OnlyLogsAfter(t, |s.trace|))
            && (id !in s.records ==> NoStoreAfter(t, |s.trace|))
  {
  }

  // ---------------------------------------------------------------------
  // Properties across operations
  // ---------------------------------------------------------------------

  /** A user created with serialisable fields is read back unchanged. */
  lemma CreateThenGet(s: Db, u: User)
    requires CreateStep(s, u, true).1
    requires '|' !in u.id && '|' !in u.name && '\n' !in u.email
    ensures GetStep(CreateStep(s, u, true).0, u.id).1 == Some(u)
  {
    RoundTripIff(u);
  }

  /** A successful update is what a later read returns, provided the new
      fields serialise; the name may be empty, unlike for `createUser`. */
  lemma UpdateThenGet(s: Db, u: User)
    requires UpdateStep(s, u, true).1
    requires '|' !in u.id && '|' !in u.name && u.email != [] && '\n' !in u.email
    ensures GetStep(UpdateStep(s, u, true).0, u.id).1 == Some(u)
  {
    RoundTripIff(u);
  }

  /** Creating an id that is already stored fails and changes nothing,
      even when a save would have succeeded. */
  lemma CreateExistingFails(s: Db, u: User)
    requires u.id in s.records
    ensures !CreateStep(s, u, true).1 && CreateStep(s, u, true).0.records == s.records
  {
  }

  /** After a successful delete the user can no longer be read. */
  lemma DeleteThenGet(s: Db, id: string)
    requires DeleteStep(s, id, true).1
    ensures GetStep(DeleteStep(s, id, true).0, id).1 == None
  {
  }

  // ---------------------------------------------------------------------
  // The service itself
  // ---------------------------------------------------------------------

  class UserService {
    var database: map<string, string>
    var trace: seq<DbCall>

    function State(): Db
      reads this
    {
      Db(database, trace)
    }

    constructor (initialRecords: map<string, string>)
      ensures State() == Db(initialRecords, [])
    {
      database := initialRecords;
      trace := [];
    }

    // Calls into the collaborators: each one is recorded in the trace.

    method CallLog(level: Level)
      modifies this
      ensures State() == old(State()).(trace := old(trace) + [Log(level)])
    {
      trace := trace + [Log(level)];
    }

    method CallExists(key: string) returns (found: bool)
      modifies this
      ensures found == (key in database)
      ensures State() == old(State()).(trace := old(trace) + [Exists(key)])
    {
      found := key in database;
      trace := trace + [Exists(key)];
    }

    method CallLoad(key: string) returns (value: string)
      requires key in database
      modifies this
      ensures State() == old(State()).(trace := old(trace) + [Load(key)])
      ensures value == database[key]
    {
      value := database[key];
      trace := trace + [Load(key)];
    }

    /** `save`; `reported` is what the database answers. */
    method CallSave(key: string, value: string, reported: bool) returns (success: bool)
      modifies this
      ensures success == reported
      ensures State() == Db(if reported then old(database)[key := value] else old(database),
                            old(trace) + [Save(key, value)])
    {
      if reported {
        database := database[key := value];
      }
      trace := trace + [Save(key, value)];
      success := reported;
    }

    /** `remove`; `reported` is what the database answers. */
    method CallRemove(key: string, reported: bool) returns (success: bool)
      modifies this
      ensures success == reported
      ensures State() == Db(if reported then old(database) - {key} else old(database),
                            old(trace) + [Remove(key)])
    {
      if reported {
        database := database - {key};
      }
      trace := trace + [Remove(key)];
      success := reported;
    }

    // The operations

    method CreateUser(u: User, saveOk: bool) returns (success: bool)
      modifies this
      ensures (State(), success) == CreateStep(old(State()), u, saveOk)
    {
      if u.id == [] || u.name == [] || u.email == [] {
        CallLog(Level.Error);
        return false;
      }
      var found := CallExists(u.id);
      if found {
        CallLog(Warning);
        return false;
      }
      success := CallSave(u.id, UserToString(u), saveOk);
      if success {
        CallLog(Info);
      } else {
        CallLog(Level.Error);
      }
    }

    method GetUser(id: string) returns (user: Option<User>)
      modifies this
      ensures (State(), user) == GetStep(old(State()), id)
    {
      if id == [] {
        CallLog(Level.Error);
        return None;
      }
      var found := CallExists(id);
      if !found {
        CallLog(Warning);
        return None;
      }
      var data := CallLoad(id);
      if data == [] {
        CallLog(Level.Error);
        return None;
      }
      var parsed := StringToUser(data);
      if parsed.Success? {
        CallLog(Info);
        user := Some(parsed.value);
      } else {
        CallLog(Level.Error);
        user := None;
      }
    }

    method UpdateUser(u: User, saveOk: bool) returns (success: bool)
      modifies this
      ensures (State(), success) == UpdateStep(old(State()), u, saveOk)
    {
      if u.id == [] {
        CallLog(Level.Error);
        return false;
      }
      var found := CallExists(u.id);
      if !found {
        CallLog(Warning);
        return false;
      }
      success := CallSave(u.id, UserToString(u), saveOk);
      if success {
        CallLog(Info);
      } else {
        CallLog(Level.Error);
      }
    }

    method DeleteUser(id: string, removeOk: bool) returns (success: bool)
      modifies this
      ensures (State(), success) == DeleteStep(old(State()), id, removeOk)
    {
      if id == [] {
        CallLog(Level.Error);
        return false;
      }
      var found := CallExists(id);
      if !found {
        CallLog(Warning);
        return false;
      }
      success := CallRemove(id, removeOk);
      if success {
        CallLog(Info);
      } else {
        CallLog(Level.Error);
      }
    }

    /** `stringToUser`: three `getline` calls on a fresh stream, stopping
        at the first that fails. */
    method StringToUser(data: string) returns (r: Result<User>)
      ensures r == ParseUser(data)
    {
      var ss := new LineStream(data);
      var ok, id := ss.GetLine('|');
      if !ok {
        return Failure(InvalidArgument(FormatError));
      }
      var name;
      ok, name := ss.GetLine('|');
      if !ok {
        return Failure(InvalidArgument(FormatError));
      }
      var email;
      ok, email := ss.GetLine('\n');
      if !ok {
        return Failure(InvalidArgument(FormatError));
      }
      return Success(User(id, name, email));
    }
  }
}

=== FILE: wrappers.dfy ===
/** Option and Result values standing for the source's null pointers and thrown exceptions. */
module Wrappers {

  /** A value that may be absent (a null `User*` in the source). */
  datatype Option<+T> = None | Some(value: T)

  /** The C++ standard exception classes that MathUtils, UserService and Calculator throw, with their message text. */
  datatype Error =
    | InvalidArgument(what: string)   // std::invalid_argument
    | RuntimeError(what: string)      // std::runtime_error

  /** Either a returned value or a thrown exception. */
  datatype Result<+T> = Success(value: T) | Failure(error: Error)
}
